=== FILE: README.md ===
# Blog authentication core, modelled in Dafny

This project models the authentication path of a blog. The blog has a Next.js
front end and a Django REST Framework back end. The model covers four parts:

- **The refresh coordinator** of `frontend/utils/api.ts`. This is the response
  interceptor on `authApi`. It holds an `isRefreshing` flag and a
  `failedQueue`. While one token refresh is running, every other 401 waits in
  the queue. When the refresh ends, the waiting requests are replayed with the
  new token or rejected with the refresh error. Each async callback is one
  pure step from a state to a new state plus a list of effects: send again,
  reject, start a refresh, log out. The handler suspended in
  `await refreshAccessToken` is the `awaiting` field. In the repository's
  files the post screens send their requests through `api`, not `authApi`,
  and nothing calls `setupAuthInterceptors`. So the older handler on `api`
  below is the one that runs, and this coordinator is only active once
  something installs it.
- **The session manager** of `frontend/context/AuthContext.tsx`. It covers:
  - `getUserFromToken`;
  - `login`, `logout` and `refreshAccessToken`;
  - `isAuthenticated`;
  - the start-up restore from `localStorage`;
  - the effect that re-derives the user;
  - the older 401 interceptor that the context installs on `api`.

  One module wires the coordinator to the session, the way
  `setupAuthInterceptors(authData)` intends.
- **The post endpoints** of the back end:
  - the `IsAuthorOrReadOnly` permission;
  - `PostViewSet`, which combines it with the framework's
    `IsAuthenticatedOrReadOnly`, forces the author on create and orders by
    `-created_at`;
  - the fields of `PostSerializer`.
- **The token claim.** `CustomTokenObtainPairSerializer.get_token` adds a
  `username` claim, and the front end reads it back. The model proves that
  this round trip works.

Modules, one per source component:

- `Wrappers`: `Option` and `Result`.
- `Http`: tokens, request configs, effects.
- `Identity`: claims and `getUserFromToken`.
- `AuthContext`: the session.
- `Coordinator`: `api.ts`.
- `LegacyInterceptor`: the older handler in `AuthContext.tsx`.
- `AuthSystem`: the session and the coordinator together.
- `Models`: the `Post` and `CustomUser` shapes.
- `Permissions`: the permission classes.
- `Serializers`: the fields and the token claim.
- `Views`: the view set, one request per step.

Behaviour kept as the code has it:

- When the tokens or the refresh token are missing, the coordinator calls
  logout but leaves `isRefreshing` true with no refresh in flight. From then
  on, over any run, every first-time 401 is queued, every effect is a
  rejection, and no queued request is ever sent or settled
  (`StallOutlastsEveryRun`).
- Replayed queue entries are not marked `_retry`, so a replayed entry can
  start a refresh of its own (`ReplayedEntryCanRefreshAgain`). The original
  request is marked, so it fails fast (`RetriedOriginalFailsFast`).
- `processQueue` with no error and a falsy token drops the queue without
  settling it.
- `refreshAccessToken` keeps the user derived from the old access token
  (`RefreshKeepsUser`).
- `get_token` adds the `username` claim. The front end derives the user from
  exactly that claim (`Serializers.IssuedTokenIdentifiesUser`).
- The serializer never writes `slug`, which is `unique`. Every post created
  through the API therefore gets the empty slug. While a post with the empty
  slug exists, every create fails, whoever sends it
  (`Views.EmptySlugBlocksEveryCreate`). Once that post is deleted, a create
  can succeed again.

Some behaviour comes from the framework the back end runs on, not from the
repository's own files:

- `IsAuthenticatedOrReadOnly`;
- all permission classes must allow a request;
- 401 versus 403 on a refusal;
- the create and update flow of a model view set;
- `ModelSerializer` validation.

It is modelled as the framework documents it.

## Model

| member | source | states |
|---|---|---|
| Identity.GetUserFromToken | frontend/context/AuthContext.tsx:46-58 | a user exactly when the token decodes and its `username` claim is non-empty, and that user carries the claim's value; a decoding failure gives no user, never an error |
| AuthContext.Restore | frontend/context/AuthContext.tsx:65-87 | outside a browser nothing is restored; in a browser the tokens are the stored pair and the user is the one derived from its access token; the restored state is well formed |
| AuthContext.EnsureUser | frontend/context/AuthContext.tsx:115-120 | tokens, storage and route stay; the user is re-derived from the access token only when tokens exist and no user does |
| AuthContext.Login | frontend/context/AuthContext.tsx:91-106 | on success the tokens and the stored pair become the issued pair, the user is derived from its access token, and the route is `/dashboard`; on failure nothing changes and the error is rethrown |
| AuthContext.Logout | frontend/context/AuthContext.tsx:108-113 | tokens, user and stored pair are cleared and the route is `/login/`; the result is never authenticated |
| AuthContext.RefreshAccessToken | frontend/context/AuthContext.tsx:124-147 | on success it returns the new access token, replaces only the access half of existing tokens and of storage, keeps the user, and changes nothing when there were no tokens; on failure the state is exactly the logged-out one and the error is rethrown |
| AuthContext.IsAuthenticated | frontend/context/AuthContext.tsx:122 | authentication needs tokens; in every well-formed state it is exactly having a user |
| AuthContext.LogoutIdempotent | frontend/context/AuthContext.tsx:108-113 | logging out twice ends as logging out once |
| AuthContext.LoginAuthenticates | frontend/context/AuthContext.tsx:91-106 | a login whose access token names a user authenticates the session as that user |
| AuthContext.StartupAuthenticatedIff | frontend/context/AuthContext.tsx:65-122 | after start-up and the user effect, the session is authenticated exactly when a stored pair exists whose access token names a user |
| AuthContext.ApplyPreservesWellFormed | frontend/context/AuthContext.tsx:91-147 | every session operation keeps "a user only next to tokens, and storage mirrors the tokens" |
| AuthContext.RunPreservesWellFormed | frontend/context/AuthContext.tsx:91-147 | the same holds over any sequence of session operations |
| AuthContext.RefreshKeepsUser | frontend/context/AuthContext.tsx:132-137 | after a refresh the user is still the one from the old access token, even after the user effect runs |
| Http.WithBearer | frontend/utils/api.ts:43 | the Authorization header becomes `Bearer <token>` and nothing else in the config changes |
| Coordinator.Stamp | frontend/utils/api.ts:53-60 | with tokens the header becomes the bearer access token, otherwise the config passes through unchanged; no other field changes |
| Coordinator.ProcessQueue | frontend/utils/api.ts:37-48 | with an error every entry is rejected with it, in queue order; with no error and a truthy token every entry is sent again with that token, in order; otherwise nothing happens to any entry; only sends and rejections occur |
| Coordinator.OnError | frontend/utils/api.ts:65-115 | a non-401 or an already-retried request is rejected untouched; a first 401 during a refresh is queued at the end with no effect; otherwise the flag is raised, and then either logout and rejection happen with the flag left raised (no refresh token) or exactly one refresh starts for this request, now marked retried |
| Coordinator.OnRefreshSuccess | frontend/utils/api.ts:97-104 | the coordinator is idle again; the queued requests are sent again with the new token, in order, when it is truthy; the original request is sent last with the new token |
| Coordinator.OnRefreshFailure | frontend/utils/api.ts:105-111 | the coordinator is idle again; every queued request is rejected with the refresh error, then logout, then the original request is rejected; nothing is sent and no refresh starts |
| Coordinator.StepKeepsInv | frontend/utils/api.ts:65-111 | every step keeps the invariant: a suspended refresh only while the flag is up and for a retried request; queued requests never retried; a non-empty queue only while the flag is up |
| Coordinator.StepAccountsRefreshes | frontend/utils/api.ts:69-95 | a step starts a refresh only when none is in flight and the flag is down; starts plus those in flight before equal outcomes consumed plus those in flight after |
| Coordinator.RunIsSingleFlight | frontend/utils/api.ts:28-111 | over any run, refreshes started equal refresh outcomes delivered plus the at most one still in flight, and the invariant holds |
| Coordinator.QueueWhileRefreshing | frontend/utils/api.ts:71-79 | first-time 401s arriving during a refresh are appended to the queue in arrival order, with no effect, whatever follows |
| Coordinator.BurstStartsOneRefresh | frontend/utils/api.ts:69-95 | a burst of first-time 401s on an idle coordinator starts exactly one refresh; the first request awaits it and the others queue in order |
| Coordinator.BurstReplaysEveryRequest | frontend/utils/api.ts:97-104 | if that refresh succeeds, every queued request and then the first one are sent again exactly once, with the new token, and the coordinator is idle |
| Coordinator.BurstRejectsEveryRequest | frontend/utils/api.ts:105-111 | if it fails, every queued request and then the first one are rejected with the refresh error, with one logout, and nothing is sent |
| Coordinator.MissingRefreshTokenStallsQueue | frontend/utils/api.ts:83-89 | without a refresh token the first 401 leaves the flag raised with nothing in flight; the next first-time 401 is then queued with no effect, and no refresh outcome can arrive in that state |
| Coordinator.StallOutlastsEveryRun | frontend/utils/api.ts:69-89 | once the flag is raised with nothing in flight, every later run keeps it so, only appends to the queue, and produces nothing but rejections |
| Coordinator.ReplayedEntryCanRefreshAgain | frontend/utils/api.ts:41-44 | a replayed queue entry is not marked retried, so a new 401 on it starts another refresh |
| Coordinator.RetriedOriginalFailsFast | frontend/utils/api.ts:82 | the original request is resent marked retried, so any 401 on it is rejected untouched |
| LegacyInterceptor.DefaultAuthorization | frontend/context/AuthContext.tsx:153-189 | with tokens the default header is the bearer access token; without, it is removed |
| LegacyInterceptor.OnError | frontend/context/AuthContext.tsx:158-184 | a refresh is requested exactly for a 401 on a request not yet retried while a handler is installed, using the captured refresh token, with the request marked; anything else is rejected with the same error |
| LegacyInterceptor.OnRefreshDone | frontend/context/AuthContext.tsx:166-181 | on success the marked request is sent again with the new token; on failure logout, then rejection with the refresh error |
| LegacyInterceptor.DefaultHeaderAgreesWithStamp | frontend/context/AuthContext.tsx:155 | the default header and the coordinator's request interceptor put the same value on a request without one |
| LegacyInterceptor.RetriedAtMostOnce | frontend/context/AuthContext.tsx:164-176 | the request sent again is marked, so a second 401 on it is rejected and asks for nothing |
| LegacyInterceptor.TwoFailuresTwoRefreshes | frontend/context/AuthContext.tsx:160-168 | two first-time 401s each ask for their own refresh: this handler is not single-flight |
| LegacyInterceptor.FailedRefreshLogsOutOnce | frontend/context/AuthContext.tsx:140-143 | the double logout of a failed refresh ends as one logout, unauthenticated |
| LegacyInterceptor.RefreshFailureSurfacesIff | frontend/context/AuthContext.tsx:124-168 | a failure of the refresh request reaches `refreshAccessToken` exactly when no handler is installed or it is not a 401 |
| LegacyInterceptor.ExpiredRefreshTokenAsksAgain | frontend/context/AuthContext.tsx:124-168 | with tokens held, every refresh request answered 401 is caught and starts another refresh with the same token on a new unmarked request: the chain is never rejected and never logs out |
| LegacyInterceptor.FailedLoginWhileSignedInRefreshes | frontend/context/AuthContext.tsx:91-93 | a login refused with 401 while tokens are held first triggers a refresh with the held refresh token |
| AuthSystem.SessionSeesOneLogout | frontend/utils/api.ts:87 | however many logout effects occur, the session ends as after one logout, or unchanged if none |
| AuthSystem.ReplaysCarryNewToken | frontend/utils/api.ts:93-104 | after a successful refresh, every request sent again carries the new access token even after the request interceptor stamps it with the session's tokens, and the coordinator is idle |
| AuthSystem.StaleSnapshotReplaysOldToken | frontend/utils/api.ts:53-60 | if the request interceptor reads a stale snapshot of the tokens, every request sent again after a successful refresh is stamped with the snapshot's old access token |
| AuthSystem.FailedRefreshEndsSession | frontend/utils/api.ts:105-111 | a failed refresh leaves the session logged out and the coordinator idle; it rejects every queued request and the original one, with one logout |
| AuthSystem.UnauthorizedWithoutSessionLogsOut | frontend/utils/api.ts:85-89 | a first 401 with no session tokens logs out, rejects the request and leaves the flag raised |
| AuthSystem.Deliver | frontend/utils/api.ts:51-117 | a session call acts on the session exactly as the session alone would, and leaves the coordinator alone with no effect; a failed request moves the coordinator exactly as its handler does with the session's current tokens, and logs the session out exactly when the handler asks; a refresh answer runs the session's refresh, then the coordinator's success or failure handler with exactly its effects, leaving the coordinator idle |
| AuthSystem.SessionEffectsKeepWellFormed | frontend/utils/api.ts:87 | the session's reaction to coordinator effects keeps it well formed |
| AuthSystem.DeliverKeepsInv | frontend/utils/api.ts:51-117 | every event keeps the session well formed and the coordinator invariant |
| AuthSystem.RunKeepsInv | frontend/utils/api.ts:51-117 | the same over any sequence of events |
| AuthSystem.SystemIsSingleFlight | frontend/utils/api.ts:28-111 | in the wired system, over any run of session calls, failed requests and refresh answers, the refreshes started equal the answers delivered plus the at most one still in flight |
| Permissions.AuthorHasPermission | backend/blog_app/permissions.py:6-12 | safe methods are allowed to everyone; any other method exactly to an authenticated user |
| Permissions.AuthorHasObjectPermission | backend/blog_app/permissions.py:14-19 | safe methods are allowed on any post; any other method exactly when the requester is signed in with the author's primary key |
| Permissions.ViewLevelChecksCoincide | backend/blog_app/views.py:11 | the two view-level checks on the post endpoints decide alike |
| Views.Allowed | backend/blog_app/views.py:11 | the two permission classes together allow safe methods always, and any other method exactly to a signed-in user who, when there is a target post, is its author |
| Views.HandleDeniesIffNotAllowed | backend/blog_app/views.py:8-14 | the request handler refuses a request exactly when the two permission classes together do not allow it on the post it targets |
| Views.SafeMethodsAlwaysAllowed | backend/blog_app/views.py:11 | both permission classes together let anyone read any post |
| Views.AnonymousOnlyReads | backend/blog_app/views.py:11 | the anonymous user is allowed exactly the safe methods |
| Views.CollectionWritesNeedSignIn | backend/blog_app/views.py:11 | writing to the collection is allowed exactly to signed-in users |
| Views.PostWritesNeedAuthor | backend/blog_app/permissions.py:14-19 | writing to a post is allowed exactly to its author |
| Views.Denied | backend/blog_app/views.py:11 | a refusal is "not authenticated" exactly for the anonymous user, otherwise "permission denied" |
| Views.Handle | backend/blog_app/views.py:8-14 | the anonymous user is refused every write with 401 before anything else; refusals and reads leave the table alone; the list has one item per post; only a signed-in create creates and only a signed-in delete deletes |
| Views.RetrievePost | backend/blog_app/views.py:8-9 | not found exactly when no post has the key, otherwise a post with that key is shown; the table is unchanged |
| Views.CreatePost | backend/blog_app/views.py:13-14 | created exactly when the payload is valid and no post has the empty slug; a valid payload meeting such a post answers `Conflict`; the new row is appended with the next key, the given author, the empty slug, the payload's title and content and both timestamps `now`; otherwise the table is unchanged and invalid payloads name their fields |
| Views.UpdatePost | backend/blog_app/permissions.py:14-19 | not found exactly when no post has the key; written exactly when the post exists, the requester is its author and the payload is valid; only rows with that key change; otherwise the table is unchanged |
| Views.DestroyPost | backend/blog_app/permissions.py:14-19 | not found exactly when no post has the key; deleted exactly when the post exists and the requester is its author, and then exactly the rows with that key disappear; otherwise the table is unchanged |
| Views.Lookup | backend/blog_app/views.py:9 | a found post is in the table with that key; not found means no post has it |
| Views.Replace | backend/blog_app/views.py:8-11 | the row with that key is replaced, every other row stays in place |
| Views.Remove | backend/blog_app/views.py:8-11 | exactly the rows with that key disappear |
| Views.OrderNewestFirst | backend/blog_app/views.py:9 | the posts newest first by creation time, as a permutation of the table |
| Views.HandleKeepsInv | backend/blog_app/views.py:8-14 | every request keeps primary keys distinct row by row and below the next key |
| Views.AnonymousChangesNothing | backend/blog_app/views.py:11 | no request of the anonymous user changes the table |
| Views.CreateForcesAuthor | backend/blog_app/views.py:13-14 | a created post is appended with a fresh key and the requester as author, and is shown with the requester's username |
| Views.CreateIgnoresReadOnlyFields | backend/blog_app/views.py:13-14 | a read-only field in the create payload (`author_username` among them) changes nothing in the outcome |
| Views.OnlyAuthorModifies | backend/blog_app/permissions.py:14-19 | an update or delete that changes the table comes from the author of the targeted post |
| Views.LookupAfterReplace | backend/blog_app/views.py:8-11 | after a replacement, the lookup finds the new row |
| Views.UpdateKeepsReadOnly | backend/blog_app/serializers.py:5-18 | an update changes only the title and content present in the payload and the modification time; key, author, slug and creation time stay |
| Views.ListIsNewestFirst | backend/blog_app/views.py:9 | the list shows every post exactly once, newest first |
| Views.EmptySlugBlocksEveryCreate | backend/blog_app/models.py:12 | while a post with the empty slug exists, every create fails and leaves the table unchanged, whoever sends it and whatever the payload |
| Views.SecondApiCreateConflicts | backend/blog_app/views.py:13-14 | right after one successful create, the next create fails: both get the same empty slug, and the slug is unique |
| Serializers.WritableAreTitleAndContent | backend/blog_app/serializers.py:8-18 | the declared fields minus the read-only ones are exactly title and content |
| Serializers.Represent | backend/blog_app/serializers.py:5-18 | a post is shown with exactly the declared fields, `author_username` taken from the author; neither slug nor author key appears |
| Serializers.Validate | backend/blog_app/serializers.py:5-18 | accepted exactly when each present title or content is non-blank text (the title within 255 characters) and both are present unless the update is partial; a field is written exactly when present, as the payload's text; a refusal names exactly the refused fields |
| Serializers.ValidationIgnoresReadOnly | backend/blog_app/serializers.py:18 | validation gives the same result on the payload restricted to writable fields |
| Serializers.RepresentationRoundTrips | backend/blog_app/serializers.py:5-18 | a post's own representation validates back to its title and content |
| Serializers.GetToken | backend/blog_app/serializers.py:26-30 | the issued claims are the base claims plus `username` set to the user's username, every other claim unchanged |
| Serializers.IssuedTokenIdentifiesUser | backend/blog_app/serializers.py:29 | a token issued for a user decodes on the front end to that user when the username is non-empty, and to no user otherwise |
| Serializers.LoginWithIssuedToken | backend/blog_app/serializers.py:24-30 | logging in with an issued pair authenticates the session as the user named in the access token |

## Left out

- HTTP, axios, promises and the event loop are not modelled. Each callback runs
  to its next `await` as one atomic step. A promise's outcome is an effect
  naming the request.
- The JWT library is not modelled. `jwtDecode` is a parameter: any function
  from token to optional claims. Claim values are strings. Signature and
  expiry checks happen on the server, outside this model.
- `localStorage` and JSON are not modelled: the stored pair is a field of the
  session state. A corrupt stored value, which would make `JSON.parse` throw,
  is not modelled.
- The Next.js router and React scheduling are not modelled. The route is the
  last `router.replace` target. State updates and effects are applied in
  sequence as explicit events.
- The `NEXT_PUBLIC_API_URL` check at `frontend/utils/api.ts:8-10` and the two
  axios instances are configuration. Neither is modelled.
- How the refresh request itself fails or succeeds is a parameter. The
  refresh token passed to `refreshAccessToken` is only sent to the server.
- AuthSystem.FailedRefreshEndsSession: the combined system accepts any refresh
  failure. In the source, while the session holds tokens, a 401 on the refresh
  request is caught by the legacy handler and never surfaces: it asks for
  another refresh, without end (`LegacyInterceptor.ExpiredRefreshTokenAsksAgain`).
  So this lemma, `Coordinator.OnRefreshFailure` and
  `Coordinator.BurstRejectsEveryRequest` describe only failures that surface:
  non-401 answers, or a session without tokens
  (`LegacyInterceptor.RefreshFailureSurfacesIff`).
- Errors are modelled as always truthy. Throwing `null` or `undefined` does
  not occur in the model.
- Other parts are not modelled:
  - the pages and components;
  - `Providers.tsx`;
  - `admin.py`;
  - `useAuth`;
  - Django authentication backends and the token refresh endpoint.
- Payload values in the back end are JSON text, numbers or timestamps. Django
  whitespace trimming, type coercion and timestamp formatting are not
  modelled.
- Serializers.Validate: checks presence, non-emptiness and the title's 255
  limit, but not the framework's whitespace trimming, its number-to-text
  coercion, or its refusal of text containing NUL characters. A title or
  content with a NUL character is accepted by the model and refused by the
  framework.
- Views.Denied: assumes JWT authentication is configured, which
  `settings.py` would decide. `settings.py` is not part of this model.
- Views.SecondApiCreateConflicts: the unique slug is enforced by the
  database. The source does not catch the resulting integrity error, so it
  fails with a 500; the model answers `Conflict` in that place.
- Post ordering among equal creation times is left to the database. The
  model fixes one order, but its contract only promises newest first.
- AuthSystem.ReplaysCarryNewToken: the wiring assumes `authData.tokens` is
  read live. `setupAuthInterceptors`'s caller is not part of this model, so
  a stale snapshot is not excluded by the source. With a snapshot, the
  request interceptor stamps every replay again with the old access token
  (`AuthSystem.StaleSnapshotReplaysOldToken`).

=== FILE: auth_context.dfy ===
/** The session manager of `AuthContext.tsx`: tokens, the derived user, the one
    localStorage cell holding the serialised pair, and the last router target.
    React state updates and effects are applied as explicit, sequential steps. */
module AuthContext {
  import opened Wrappers
  import opened Http
  import opened Identity

  const DashboardRoute: string := "/dashboard"
  const LoginRoute: string := "/login/"

  /** `stored` is the `authTokens` localStorage entry; `route` is the target of
      the last `router.replace`, absent while nothing has navigated. */
  datatype AuthState = AuthState(
    tokens: Option<AuthTokens>,
    user: Option<User>,
    stored: Option<AuthTokens>,
    route: Option<string>)

  /** A session step: the new state and what the call returns or throws. */
  datatype Step<+T> = Step(state: AuthState, result: Result<T, ApiError>)

  /** `isAuthenticated = !!user && !!tokens`. */
  function IsAuthenticated(s: AuthState): (b: bool)
    ensures b ==> s.tokens.Some?
    // in every well-formed state, being authenticated is having a user
    ensures WellFormed(s) ==> (b <==> s.user.Some?)
  {
    s.user.Some? && s.tokens.Some?
  }

  /** What every session operation keeps: a user only next to tokens, and the
      stored pair mirroring the tokens whenever there are any. */
  predicate WellFormed(s: AuthState) {
    && (s.user.Some? ==> s.tokens.Some?)
    && (s.tokens.Some? ==> s.stored == s.tokens)
  }

  /** The two lazy `useState` initialisers run at start-up. Outside a browser
      (`typeof window === "undefined"`) nothing is read. */
  function Restore(decode: Decoder, stored: Option<AuthTokens>, hasWindow: bool): (s: AuthState)
    ensures s.stored == stored && s.route.None?
    ensures !hasWindow ==> s.tokens.None? && s.user.None?
    ensures hasWindow ==> s.tokens == stored
    ensures hasWindow && stored.Some? ==> s.user == GetUserFromToken(decode, stored.value.access)
    ensures stored.None? ==> s.user.None?
    ensures WellFormed(s)
  {
    if hasWindow && stored.Some? then
      AuthState(stored, GetUserFromToken(decode, stored.value.access), stored, None)
    else
      AuthState(None, None, stored, None)
  }

  /** The effect that re-derives the user whenever tokens exist but no user does. */
  function EnsureUser(decode: Decoder, s: AuthState): (r: AuthState)
    ensures r.tokens == s.tokens && r.stored == s.stored && r.route == s.route
    ensures s.user.Some? || s.tokens.None? ==> r.user == s.user
    ensures s.user.None? && s.tokens.Some? ==> r.user == GetUserFromToken(decode, s.tokens.value.access)
  {
    if s.tokens.Some? && s.user.None? then
      s.(user := GetUserFromToken(decode, s.tokens.value.access))
    else
      s
  }

  /** `login`: `response` is the outcome of `POST /token/`. */
  function Login(decode: Decoder, s: AuthState, response: Result<AuthTokens, ApiError>): (r: Step<()>)
    ensures response.Ok? ==> r.result.Ok?
    ensures response.Ok? ==> r.state.tokens == Some(response.value) && r.state.stored == Some(response.value)
    ensures response.Ok? ==> r.state.user == GetUserFromToken(decode, response.value.access)
    ensures response.Ok? ==> r.state.route == Some(DashboardRoute)
    ensures response.Err? ==> r.state == s && r.result == Err(response.error)
  {
    match response
    case Ok(pair) =>
      Step(AuthState(Some(pair), GetUserFromToken(decode, pair.access), Some(pair), Some(DashboardRoute)), Ok(()))
    case Err(e) =>
      Step(s, Err(e))
  }

  /** `logout`. */
  function Logout(s: AuthState): (r: AuthState)
    ensures r.tokens.None? && r.user.None? && r.stored.None?
    ensures r.route == Some(LoginRoute)
    ensures !IsAuthenticated(r)
  {
    AuthState(None, None, None, Some(LoginRoute))
  }

  /** `refreshAccessToken`: `response` is the outcome of `POST /token/refresh/`,
      carrying the new access token. */
  function RefreshAccessToken(s: AuthState, response: Result<string, ApiError>): (r: Step<string>)
    ensures response.Ok? ==> r.result == Ok(response.value)
    ensures response.Ok? ==> r.state.tokens.Some? == s.tokens.Some?
    ensures response.Ok? && s.tokens.Some? ==>
      r.state.tokens == Some(AuthTokens(response.value, s.tokens.value.refresh)) && r.state.stored == r.state.tokens
    ensures response.Ok? && s.tokens.None? ==> r.state.stored == s.stored
    ensures response.Ok? ==> r.state.user == s.user && r.state.route == s.route
    ensures response.Err? ==> r.state == Logout(s) && r.result == Err(response.error)
  {
    match response
    case Ok(newAccess) =>
      if s.tokens.None? then
        Step(s, Ok(newAccess))
      else
        var updated := s.tokens.value.(access := newAccess);
        Step(s.(tokens := Some(updated), stored := Some(updated)), Ok(newAccess))
    case Err(e) =>
      Step(Logout(s), Err(e))
  }

  /** Logging out twice leaves the same state as logging out once. */
  lemma LogoutIdempotent(s: AuthState)
    ensures Logout(Logout(s)) == Logout(s)
  {
  }

  /** A successful login whose access token names a user authenticates the session. */
  lemma LoginAuthenticates(decode: Decoder, s: AuthState, pair: AuthTokens)
    requires decode(pair.access).Some? && HasUsername(decode(pair.access).value)
    ensures IsAuthenticated(Login(decode, s, Ok(pair)).state)
    ensures Login(decode, s, Ok(pair)).state.user == Some(User(decode(pair.access).value[UsernameClaim]))
  {
  }

  /** Start-up: after restoring and running the user effect, the session is
      authenticated exactly when a stored pair exists whose access token names a user. */
  lemma StartupAuthenticatedIff(decode: Decoder, stored: Option<AuthTokens>)
    ensures IsAuthenticated(EnsureUser(decode, Restore(decode, stored, true)))
        <==> stored.Some? && GetUserFromToken(decode, stored.value.access).Some?
  {
  }

  /** The events the session reacts to. */
  datatype SessionEvent =
    | LoginAnswer(loginResponse: Result<AuthTokens, ApiError>)
    | LogoutCall
    | RefreshAnswer(refreshResponse: Result<string, ApiError>)
    | UserEffect

  function Apply(decode: Decoder, s: AuthState, e: SessionEvent): AuthState {
    match e
    case LoginAnswer(resp) => Login(decode, s, resp).state
    case LogoutCall => Logout(s)
    case RefreshAnswer(resp) => RefreshAccessToken(s, resp).state
    case UserEffect => EnsureUser(decode, s)
  }

  function Run(decode: Decoder, s: AuthState, events: seq<SessionEvent>): AuthState
    decreases |events|
  {
    if events == [] then s else Run(decode, Apply(decode, s, events[0]), events[1..])
  }

  lemma ApplyPreservesWellFormed(decode: Decoder, s: AuthState, e: SessionEvent)
    requires WellFormed(s)
    ensures WellFormed(Apply(decode, s, e))
  {
  }

  /** Every session started from storage stays well formed, whatever happens next. */
  lemma {:induction false} RunPreservesWellFormed(decode: Decoder, s: AuthState, events: seq<SessionEvent>)
    requires WellFormed(s)
    ensures WellFormed(Run(decode, s, events))
    decreases |events|
  {
    if events != [] {
      ApplyPreservesWellFormed(decode, s, events[0]);
      RunPreservesWellFormed(decode, Apply(decode, s, events[0]), events[1..]);
    }
  }

  /** A refresh keeps the user of the old access token: the user is not re-derived
      from the new token, so identity and token can disagree after a refresh. */
  lemma RefreshKeepsUser(decode: Decoder, s: AuthState, newAccess: string)
    requires s.user.Some?
    ensures EnsureUser(decode, RefreshAccessToken(s, Ok(newAccess)).state).user == s.user
  {
  }
}

=== FILE: auth_system.dfy ===
/** The coordinator of `utils/api.ts` wired to the session of `AuthContext.tsx`,
    as `setupAuthInterceptors(authData)` intends: the coordinator reads the
    session's current tokens, its refresh call is `refreshAccessToken`, and its
    logout effect is the session's `logout`. */
module AuthSystem {
  import opened Wrappers
  import opened Http
  import opened Identity
  import opened AuthContext
  import opened Coordinator

  datatype System = System(auth: AuthState, coord: Coord)

  datatype Outcome = Outcome(system: System, effects: seq<Effect>)

  /** The session side of a list of effects: each `Logout` runs `logout()`;
      the other effects do not touch the session. */
  function ApplyToSession(auth: AuthState, effects: seq<Effect>): AuthState
    decreases |effects|
  {
    if effects == [] then auth
    else ApplyToSession(if effects[0].Logout? then AuthContext.Logout(auth) else auth, effects[1..])
  }

  /** However many logouts a list of effects holds, the session ends as after one. */
  lemma {:induction false} SessionSeesOneLogout(auth: AuthState, effects: seq<Effect>)
    ensures ApplyToSession(auth, effects) == if Logout in effects then AuthContext.Logout(auth) else auth
    decreases |effects|
  {
    if effects != [] {
      var next := if effects[0].Logout? then AuthContext.Logout(auth) else auth;
      SessionSeesOneLogout(next, effects[1..]);
      assert Logout in effects <==> effects[0].Logout? || Logout in effects[1..] by {
        assert effects == [effects[0]] + effects[1..];
      }
      if effects[0].Logout? {
        LogoutIdempotent(auth);
      }
    }
  }

  datatype SystemEvent =
    | SessionCall(call: SessionEvent)
    | RequestFailed(config: RequestConfig, err: ApiError)
    | RefreshAnswered(response: Result<string, ApiError>)

  predicate Enabled(s: System, e: SystemEvent) {
    e.RefreshAnswered? ==> s.coord.awaiting.Some?
  }

  /** One event. A refresh answer first runs the session's `refreshAccessToken`
      (which logs out on failure) and then resumes the coordinator's handler. */
  function Deliver(decode: Decoder, s: System, e: SystemEvent): (r: Outcome)
    requires Enabled(s, e)
    // session calls produce no request effects, leave the coordinator alone and
    // act on the session as the session alone would
    ensures e.SessionCall? ==> r.effects == [] && r.system.coord == s.coord
    ensures e.SessionCall? ==> r.system.auth == AuthContext.Apply(decode, s.auth, e.call)
    // a failed request moves the coordinator exactly as its handler does
    ensures e.RequestFailed? ==> r.system.coord == OnError(s.coord, e.config, e.err, s.auth.tokens).state
    // a failed request is handled with the session's current tokens, and the
    // session is logged out exactly when the handler asks for it
    ensures e.RequestFailed? ==> r.effects == OnError(s.coord, e.config, e.err, s.auth.tokens).effects
    ensures e.RequestFailed? ==>
      r.system.auth == if Logout in r.effects then AuthContext.Logout(s.auth) else s.auth
    // a refresh answer always ends the refresh: the coordinator is idle again
    ensures e.RefreshAnswered? ==> r.system.coord == Idle
    ensures e.RefreshAnswered? && e.response.Ok? ==> r.system.auth == RefreshAccessToken(s.auth, e.response).state
    ensures e.RefreshAnswered? && e.response.Ok? ==> r.effects == OnRefreshSuccess(s.coord, e.response.value).effects
    ensures e.RefreshAnswered? && e.response.Err? ==> r.effects == OnRefreshFailure(s.coord, e.response.error).effects
    ensures e.RefreshAnswered? && e.response.Err? ==> r.system.auth == AuthContext.Logout(s.auth)
  {
    match e
    case SessionCall(call) =>
      Outcome(System(AuthContext.Apply(decode, s.auth, call), s.coord), [])
    case RequestFailed(config, err) =>
      var reaction := OnError(s.coord, config, err, s.auth.tokens);
      SessionSeesOneLogout(s.auth, reaction.effects);
      Outcome(System(ApplyToSession(s.auth, reaction.effects), reaction.state), reaction.effects)
    case RefreshAnswered(response) =>
      var refreshed := RefreshAccessToken(s.auth, response);
      var reaction := match response
                      case Ok(newAccess) => OnRefreshSuccess(s.coord, newAccess)
                      case Err(err) => OnRefreshFailure(s.coord, err);
      SessionSeesOneLogout(refreshed.state, reaction.effects);
      LogoutIdempotent(s.auth);
      assert response.Ok? ==> Logout !in reaction.effects;
      assert response.Err? ==> reaction.effects[|s.coord.failedQueue|] == Logout;
      Outcome(System(ApplyToSession(refreshed.state, reaction.effects), reaction.state), reaction.effects)
  }

  /** After a successful refresh, every request the coordinator sends again still
      carries the new access token once the request interceptor has stamped it
      with the session's tokens: the session now holds that token, or holds none
      and leaves the header alone. */
  lemma ReplaysCarryNewToken(decode: Decoder, s: System, newAccess: string)
    requires s.coord.awaiting.Some?
    ensures forall i :: 0 <= i < |Deliver(decode, s, RefreshAnswered(Ok(newAccess))).effects| ==>
      var e := Deliver(decode, s, RefreshAnswered(Ok(newAccess))).effects[i];
      e.Dispatch? && Stamp(Deliver(decode, s, RefreshAnswered(Ok(newAccess))).system.auth.tokens, e.config).authorization
                     == Some(Bearer(newAccess))
    ensures Deliver(decode, s, RefreshAnswered(Ok(newAccess))).system.coord == Idle
  {
    var r := Deliver(decode, s, RefreshAnswered(Ok(newAccess)));
    var reaction := OnRefreshSuccess(s.coord, newAccess);
    var refreshed := RefreshAccessToken(s.auth, Ok(newAccess));
    assert forall i :: 0 <= i < |reaction.effects| ==> reaction.effects[i].Dispatch? by {
      assert reaction.effects == ProcessQueue(s.coord.failedQueue, None, Some(newAccess))
                                 + [Dispatch(WithBearer(s.coord.awaiting.value, newAccess))];
    }
    assert Logout !in reaction.effects;
    SessionSeesOneLogout(refreshed.state, reaction.effects);
    assert r.system.auth == refreshed.state;
    forall i | 0 <= i < |r.effects|
      ensures r.effects[i].config.authorization == Some(Bearer(newAccess))
    {
      if Truthy(newAccess) && i < |s.coord.failedQueue| {
        assert r.effects[i] == Dispatch(WithBearer(s.coord.failedQueue[i], newAccess));
      }
    }
  }

  /** The counterpart when the request interceptor reads a stale snapshot of the
      tokens instead of the live session: every request sent again after a
      successful refresh is stamped once more with the snapshot's old access
      token, whatever the new one is. */
  lemma StaleSnapshotReplaysOldToken(decode: Decoder, s: System, newAccess: string, snapshot: AuthTokens)
    requires s.coord.awaiting.Some?
    ensures |Deliver(decode, s, RefreshAnswered(Ok(newAccess))).effects| > 0
    ensures forall i :: 0 <= i < |Deliver(decode, s, RefreshAnswered(Ok(newAccess))).effects| ==>
      var e := Deliver(decode, s, RefreshAnswered(Ok(newAccess))).effects[i];
      e.Dispatch? && Stamp(Some(snapshot), e.config).authorization == Some(Bearer(snapshot.access))
  {
    var reaction := OnRefreshSuccess(s.coord, newAccess);
    assert reaction.effects == ProcessQueue(s.coord.failedQueue, None, Some(newAccess))
                               + [Dispatch(WithBearer(s.coord.awaiting.value, newAccess))];
  }

  /** A failed refresh ends the session exactly as one logout does, rejects every
      waiting request and the original one with the refresh error, and sends
      nothing again. */
  lemma FailedRefreshEndsSession(decode: Decoder, s: System, err: ApiError)
    requires s.coord.awaiting.Some?
    ensures Deliver(decode, s, RefreshAnswered(Err(err))).system == System(AuthContext.Logout(s.auth), Idle)
    ensures Deliver(decode, s, RefreshAnswered(Err(err))).effects
         == Rejections(s.coord.failedQueue, err) + [Logout, Reject(s.coord.awaiting.value.id, err)]
  {
    var reaction := OnRefreshFailure(s.coord, err);
    assert Logout in reaction.effects by {
      assert reaction.effects[|s.coord.failedQueue|] == Logout;
    }
    SessionSeesOneLogout(AuthContext.Logout(s.auth), reaction.effects);
    LogoutIdempotent(s.auth);
  }

  /** A first 401 while the session holds no tokens logs the session out and
      rejects the request, and leaves the coordinator's flag raised. */
  lemma UnauthorizedWithoutSessionLogsOut(decode: Decoder, s: System, c: RequestConfig, err: ApiError)
    requires s.auth.tokens.None? && !s.coord.isRefreshing && IsUnauthorized(err) && !c.retry
    ensures Deliver(decode, s, RequestFailed(c, err)).system.auth == AuthContext.Logout(s.auth)
    ensures Deliver(decode, s, RequestFailed(c, err)).system.coord.isRefreshing
    ensures Deliver(decode, s, RequestFailed(c, err)).effects == [Logout, Reject(c.id, err)]
  {
    SessionSeesOneLogout(s.auth, [Logout, Reject(c.id, err)]);
  }

  predicate Inv(s: System) {
    WellFormed(s.auth) && Coordinator.Inv(s.coord)
  }

  function RunSystem(decode: Decoder, s: System, events: seq<SystemEvent>): Option<Outcome>
    decreases |events|
  {
    if events == [] then Some(Outcome(s, []))
    else if !Enabled(s, events[0]) then None
    else
      var first := Deliver(decode, s, events[0]);
      match RunSystem(decode, first.system, events[1..])
      case None => None
      case Some(rest) => Some(Outcome(rest.system, first.effects + rest.effects))
  }

  lemma {:induction false} SessionEffectsKeepWellFormed(auth: AuthState, effects: seq<Effect>)
    requires WellFormed(auth)
    ensures WellFormed(ApplyToSession(auth, effects))
  {
    SessionSeesOneLogout(auth, effects);
  }

  lemma DeliverKeepsInv(decode: Decoder, s: System, e: SystemEvent)
    requires Inv(s) && Enabled(s, e)
    ensures Inv(Deliver(decode, s, e).system)
  {
    match e
    case SessionCall(call) =>
      ApplyPreservesWellFormed(decode, s.auth, call);
    case RequestFailed(config, err) =>
      StepKeepsInv(s.coord, Failed(config, err, s.auth.tokens));
      SessionEffectsKeepWellFormed(s.auth, OnError(s.coord, config, err, s.auth.tokens).effects);
    case RefreshAnswered(response) =>
      ApplyPreservesWellFormed(decode, s.auth, AuthContext.RefreshAnswer(response));
      var reaction := match response
                      case Ok(newAccess) => OnRefreshSuccess(s.coord, newAccess)
                      case Err(err) => OnRefreshFailure(s.coord, err);
      SessionEffectsKeepWellFormed(RefreshAccessToken(s.auth, response).state, reaction.effects);
  }

  /** Whatever mix of session calls, failed requests and refresh answers arrives,
      the session stays well formed and the coordinator keeps its invariant. */
  lemma {:induction false} RunKeepsInv(decode: Decoder, s: System, events: seq<SystemEvent>)
    requires Inv(s) && RunSystem(decode, s, events).Some?
    ensures Inv(RunSystem(decode, s, events).value.system)
    decreases |events|
  {
    if events != [] {
      DeliverKeepsInv(decode, s, events[0]);
      RunKeepsInv(decode, Deliver(decode, s, events[0]).system, events[1..]);
    }
  }

  /** Refresh answers among the events: the outcomes the coordinator consumes. */
  function SystemCompletions(events: seq<SystemEvent>): nat {
    if events == [] then 0
    else (if events[0].RefreshAnswered? then 1 else 0) + SystemCompletions(events[1..])
  }

  /** One event accounts for refreshes as the coordinator's own step does; session
      calls start none and consume none. */
  lemma DeliverAccountsRefreshes(decode: Decoder, s: System, e: SystemEvent)
    requires Inv(s) && Enabled(s, e)
    ensures CountStarts(Deliver(decode, s, e).effects) + InFlight(s.coord)
         == (if e.RefreshAnswered? then 1 else 0) + InFlight(Deliver(decode, s, e).system.coord)
  {
    var r := Deliver(decode, s, e);
    match e
    case SessionCall(call) =>
    case RequestFailed(config, err) =>
      StepAccountsRefreshes(s.coord, Failed(config, err, s.auth.tokens));
    case RefreshAnswered(response) =>
      match response
      case Ok(t) => StepAccountsRefreshes(s.coord, RefreshOk(t));
      case Err(err) => StepAccountsRefreshes(s.coord, RefreshErr(err));
  }

  /** Single flight in the wired system: over any run of session calls, failed
      requests and refresh answers, the refreshes started equal the answers
      delivered plus the at most one still in flight. */
  lemma {:induction false} SystemIsSingleFlight(decode: Decoder, s: System, events: seq<SystemEvent>)
    requires Inv(s) && RunSystem(decode, s, events).Some?
    ensures CountStarts(RunSystem(decode, s, events).value.effects) + InFlight(s.coord)
         == SystemCompletions(events) + InFlight(RunSystem(decode, s, events).value.system.coord)
    decreases |events|
  {
    if events != [] {
      var first := Deliver(decode, s, events[0]);
      DeliverAccountsRefreshes(decode, s, events[0]);
      DeliverKeepsInv(decode, s, events[0]);
      SystemIsSingleFlight(decode, first.system, events[1..]);
      CountStartsAppend(first.effects, RunSystem(decode, first.system, events[1..]).value.effects);
    }
  }
}

=== FILE: coordinator.dfy ===
/** The single-flight refresh coordinator of `utils/api.ts`, as installed by
    `setupAuthInterceptors` on `authApi`. Each async callback runs to its next
    `await` without preemption, so each becomes one pure step from a state to
    a new state and the effects it produced. The `await refreshAccessToken(...)`
    inside the response interceptor is a suspended frame; `awaiting` records the
    request whose handler sits in it. */
module Coordinator {
  import opened Wrappers
  import opened Http

  /** `isRefreshing`, `failedQueue` (each entry's resolve/reject are the promise
      of the entry's config) and the suspended refresh frame, if any. */
  datatype Coord = Coord(isRefreshing: bool, failedQueue: seq<RequestConfig>, awaiting: Option<RequestConfig>)

  const Idle: Coord := Coord(false, [], None)

  datatype Reaction = Reaction(state: Coord, effects: seq<Effect>)

  /** The request interceptor: with tokens, the Authorization header becomes the
      bearer access token; without, the config passes through unchanged. */
  function Stamp(tokens: Option<AuthTokens>, c: RequestConfig): (r: RequestConfig)
    ensures tokens.Some? ==> r.authorization == Some(Bearer(tokens.value.access))
    ensures tokens.None? ==> r == c
    ensures r.id == c.id && r.url == c.url && r.payload == c.payload && r.retry == c.retry
  {
    if tokens.Some? then WithBearer(c, tokens.value.access) else c
  }

  /** JavaScript truthiness of the optional `token` argument of `processQueue`. */
  predicate TokenTruthy(token: Option<string>) {
    token.Some? && Truthy(token.value)
  }

  /** One `forEach` iteration of `processQueue`. */
  function Settle(c: RequestConfig, error: Option<ApiError>, token: Option<string>): seq<Effect> {
    if error.Some? then [Reject(c.id, error.value)]
    else if TokenTruthy(token) then [Dispatch(WithBearer(c, token.value))]
    else []
  }

  /** `processQueue(error, token)`: the effects it has on the entries, in queue
      order; afterwards the queue is always empty. With an error every entry is
      rejected with it; with no error and a truthy token every entry is sent
      again carrying that token; otherwise the entries are dropped unsettled. */
  function ProcessQueue(queue: seq<RequestConfig>, error: Option<ApiError>, token: Option<string>): (effects: seq<Effect>)
    ensures error.Some? ==> |effects| == |queue|
    ensures error.Some? ==> forall i :: 0 <= i < |queue| ==> effects[i] == Reject(queue[i].id, error.value)
    ensures error.None? && TokenTruthy(token) ==> |effects| == |queue|
    ensures error.None? && TokenTruthy(token) ==>
      forall i :: 0 <= i < |queue| ==> effects[i] == Dispatch(WithBearer(queue[i], token.value))
    ensures error.None? && !TokenTruthy(token) ==> effects == []
    ensures forall i :: 0 <= i < |effects| ==> effects[i].Dispatch? || effects[i].Reject?
  {
    if queue == [] then []
    else Settle(queue[0], error, token) + ProcessQueue(queue[1..], error, token)
  }

  /** The response interceptor's error handler for a failed `config`, reading
      `authData.tokens` as `tokens`. */
  function OnError(s: Coord, config: RequestConfig, err: ApiError, tokens: Option<AuthTokens>): (r: Reaction)
    // any non-401, or a 401 on an already-retried request, is rejected untouched
    ensures !(IsUnauthorized(err) && !config.retry) ==> r == Reaction(s, [Reject(config.id, err)])
    // a 401 during a refresh is queued at the end, nothing is sent, the flag is kept
    ensures IsUnauthorized(err) && !config.retry && s.isRefreshing ==>
      r == Reaction(s.(failedQueue := s.failedQueue + [config]), [])
    // otherwise the flag is raised first, whatever follows
    ensures IsUnauthorized(err) && !config.retry && !s.isRefreshing ==>
      r.state.isRefreshing && r.state.failedQueue == s.failedQueue
    // without a refresh token: logout and rejection, and the flag stays raised
    ensures IsUnauthorized(err) && !config.retry && !s.isRefreshing && (tokens.None? || !Truthy(tokens.value.refresh)) ==>
      r.effects == [Logout, Reject(config.id, err)] && r.state.awaiting == s.awaiting
    // with one: exactly one refresh starts, for this request, now marked retried
    ensures IsUnauthorized(err) && !config.retry && !s.isRefreshing && tokens.Some? && Truthy(tokens.value.refresh) ==>
      r.effects == [StartRefresh(tokens.value.refresh)] && r.state.awaiting == Some(config.(retry := true))
  {
    if IsUnauthorized(err) && !config.retry then
      if s.isRefreshing then
        Reaction(s.(failedQueue := s.failedQueue + [config]), [])
      else if tokens.None? || !Truthy(tokens.value.refresh) then
        Reaction(s.(isRefreshing := true), [Logout, Reject(config.id, err)])
      else
        Reaction(s.(isRefreshing := true, awaiting := Some(config.(retry := true))), [StartRefresh(tokens.value.refresh)])
    else
      Reaction(s, [Reject(config.id, err)])
  }

  /** The handler resumes after `refreshAccessToken` returned `newAccess`: the
      queue is replayed, the flag lowered, and the original request sent again
      with the new token. */
  function OnRefreshSuccess(s: Coord, newAccess: string): (r: Reaction)
    requires s.awaiting.Some?
    ensures r.state == Idle
    ensures |r.effects| > 0 && r.effects[|r.effects| - 1] == Dispatch(WithBearer(s.awaiting.value, newAccess))
    ensures Truthy(newAccess) ==> |r.effects| == |s.failedQueue| + 1
    ensures Truthy(newAccess) ==> forall i :: 0 <= i < |s.failedQueue| ==>
      r.effects[i] == Dispatch(WithBearer(s.failedQueue[i], newAccess))
    ensures !Truthy(newAccess) ==> r.effects == [Dispatch(WithBearer(s.awaiting.value, newAccess))]
  {
    var original := WithBearer(s.awaiting.value, newAccess);
    Reaction(Idle, ProcessQueue(s.failedQueue, None, Some(newAccess)) + [Dispatch(original)])
  }

  /** The handler resumes after `refreshAccessToken` threw `err`: every queued
      request and then the original one are rejected with it, and logout is called. */
  function OnRefreshFailure(s: Coord, err: ApiError): (r: Reaction)
    requires s.awaiting.Some?
    ensures r.state == Idle
    ensures |r.effects| == |s.failedQueue| + 2
    ensures forall i :: 0 <= i < |s.failedQueue| ==> r.effects[i] == Reject(s.failedQueue[i].id, err)
    ensures r.effects[|s.failedQueue|..] == [Logout, Reject(s.awaiting.value.id, err)]
    ensures forall i :: 0 <= i < |r.effects| ==> !r.effects[i].Dispatch? && !r.effects[i].StartRefresh?
  {
    Reaction(Idle, ProcessQueue(s.failedQueue, Some(err), None) + [Logout, Reject(s.awaiting.value.id, err)])
  }

  /** The invariant of reachable coordinator states: a suspended refresh frame only
      while the flag is up, and for a request already marked retried; queued
      requests are never marked; a non-empty queue only while the flag is up. */
  predicate Inv(s: Coord) {
    && (s.awaiting.Some? ==> s.isRefreshing && s.awaiting.value.retry)
    && (forall i :: 0 <= i < |s.failedQueue| ==> !s.failedQueue[i].retry)
    && (|s.failedQueue| > 0 ==> s.isRefreshing)
  }

  /** The events delivered to the coordinator. */
  datatype Event =
    | Failed(config: RequestConfig, err: ApiError, tokens: Option<AuthTokens>)
    | RefreshOk(newAccess: string)
    | RefreshErr(refreshError: ApiError)

  /** A refresh outcome can only arrive while a handler awaits one. */
  predicate Enabled(s: Coord, e: Event) {
    e.Failed? || s.awaiting.Some?
  }

  function Step(s: Coord, e: Event): Reaction
    requires Enabled(s, e)
  {
    match e
    case Failed(c, err, tokens) => OnError(s, c, err, tokens)
    case RefreshOk(t) => OnRefreshSuccess(s, t)
    case RefreshErr(err) => OnRefreshFailure(s, err)
  }

  /** Runs a sequence of events, collecting the effects; `None` when an event
      arrives that cannot happen in that state. */
  function Run(s: Coord, events: seq<Event>): Option<Reaction>
    decreases |events|
  {
    if events == [] then Some(Reaction(s, []))
    else if !Enabled(s, events[0]) then None
    else
      var first := Step(s, events[0]);
      match Run(first.state, events[1..])
      case None => None
      case Some(rest) => Some(Reaction(rest.state, first.effects + rest.effects))
  }

  /** Number of refresh outcomes among the events. */
  function Completions(events: seq<Event>): nat {
    if events == [] then 0
    else (if events[0].Failed? then 0 else 1) + Completions(events[1..])
  }

  function InFlight(s: Coord): nat {
    if s.awaiting.Some? then 1 else 0
  }

  lemma StepKeepsInv(s: Coord, e: Event)
    requires Inv(s) && Enabled(s, e)
    ensures Inv(Step(s, e).state)
  {
  }

  /** A single step starts a refresh only when none is in flight, and accounts for
      it: refreshes started plus those in flight before equal outcomes consumed
      plus those in flight after. */
  lemma StepAccountsRefreshes(s: Coord, e: Event)
    requires Inv(s) && Enabled(s, e)
    ensures CountStarts(Step(s, e).effects) + InFlight(s)
         == (if e.Failed? then 0 else 1) + InFlight(Step(s, e).state)
    ensures CountStarts(Step(s, e).effects) > 0 ==> s.awaiting.None? && !s.isRefreshing
  {
    var r := Step(s, e);
    match e
    case Failed(c, err, tokens) =>
      if IsUnauthorized(err) && !c.retry && !s.isRefreshing
         && tokens.Some? && Truthy(tokens.value.refresh) {
        assert r.effects == [StartRefresh(tokens.value.refresh)];
        assert r.effects[1..] == [];
      } else if IsUnauthorized(err) && !c.retry && !s.isRefreshing {
        NoStartsCounted(r.effects);
      } else if IsUnauthorized(err) && !c.retry {
        assert r.effects == [];
      } else {
        NoStartsCounted(r.effects);
      }
    case RefreshOk(t) =>
      var q := ProcessQueue(s.failedQueue, None, Some(t));
      NoStartsCounted(q);
      CountStartsAppend(q, [Dispatch(WithBearer(s.awaiting.value, t))]);
    case RefreshErr(err) =>
      NoStartsCounted(r.effects);
  }

  /** Single flight over any run: the refreshes started equal the refresh
      outcomes delivered plus the one still in flight, if any, so at most one
      refresh is ever outstanding; the invariant holds throughout. */
  lemma {:induction false} RunIsSingleFlight(s: Coord, events: seq<Event>)
    requires Inv(s) && Run(s, events).Some?
    ensures Inv(Run(s, events).value.state)
    ensures CountStarts(Run(s, events).value.effects) + InFlight(s)
         == Completions(events) + InFlight(Run(s, events).value.state)
    decreases |events|
  {
    if events != [] {
      var first := Step(s, events[0]);
      StepKeepsInv(s, events[0]);
      StepAccountsRefreshes(s, events[0]);
      RunIsSingleFlight(first.state, events[1..]);
      var rest := Run(first.state, events[1..]).value;
      CountStartsAppend(first.effects, rest.effects);
    }
  }

  /** The `Dispatch` effects that replay `cs` with `token`, in order. */
  function Replays(cs: seq<RequestConfig>, token: string): (r: seq<Effect>)
    ensures |r| == |cs|
    ensures forall i :: 0 <= i < |cs| ==> r[i] == Dispatch(WithBearer(cs[i], token))
  {
    seq(|cs|, i requires 0 <= i < |cs| => Dispatch(WithBearer(cs[i], token)))
  }

  /** The `Reject` effects that reject `cs` with `err`, in order. */
  function Rejections(cs: seq<RequestConfig>, err: ApiError): (r: seq<Effect>)
    ensures |r| == |cs|
    ensures forall i :: 0 <= i < |cs| ==> r[i] == Reject(cs[i].id, err)
  {
    seq(|cs|, i requires 0 <= i < |cs| => Reject(cs[i].id, err))
  }

  predicate AllFresh(cs: seq<RequestConfig>) {
    forall i :: 0 <= i < |cs| ==> !cs[i].retry
  }

  /** The 401 events for `cs`, in order, with the same error and tokens. */
  function Feed(cs: seq<RequestConfig>, err: ApiError, tokens: AuthTokens): (es: seq<Event>)
    ensures |es| == |cs|
    ensures forall i :: 0 <= i < |cs| ==> es[i] == Failed(cs[i], err, Some(tokens))
  {
    seq(|cs|, i requires 0 <= i < |cs| => Failed(cs[i], err, Some(tokens)))
  }

  /** Running a non-empty list whose head can happen is taking that step and
      running the rest. */
  lemma RunStep(s: Coord, events: seq<Event>)
    requires events != [] && Enabled(s, events[0])
    ensures Run(s, events)
         == match Run(Step(s, events[0]).state, events[1..])
            case None => None
            case Some(rest) => Some(Reaction(rest.state, Step(s, events[0]).effects + rest.effects))
  {
  }

  /** First-time 401s arriving while a refresh is in flight are appended to the
      queue in arrival order, and none is sent or settled. */
  lemma {:induction false} QueueWhileRefreshing(s: Coord, cs: seq<RequestConfig>, err: ApiError, tokens: AuthTokens, tail: seq<Event>)
    requires s.isRefreshing && IsUnauthorized(err) && AllFresh(cs)
    ensures Run(s, Feed(cs, err, tokens) + tail) == Run(s.(failedQueue := s.failedQueue + cs), tail)
    decreases |cs|
  {
    if cs == [] {
      assert Feed(cs, err, tokens) + tail == tail;
      assert s.failedQueue + cs == s.failedQueue;
    } else {
      var es := Feed(cs, err, tokens) + tail;
      var s1 := s.(failedQueue := s.failedQueue + [cs[0]]);
      assert es[0] == Failed(cs[0], err, Some(tokens));
      assert es[1..] == Feed(cs[1..], err, tokens) + tail;
      assert Step(s, es[0]) == Reaction(s1, []);
      RunStep(s, es);
      QueueWhileRefreshing(s1, cs[1..], err, tokens, tail);
      assert s1.failedQueue + cs[1..] == s.failedQueue + cs;
      match Run(s1, es[1..]) {
        case None =>
        case Some(rest) => assert [] + rest.effects == rest.effects;
      }
    }
  }

  /** A burst of first-time 401s hitting an idle coordinator: the first starts the
      only refresh and the others wait in arrival order, whatever happens next. */
  lemma BurstStartsOneRefresh(cs: seq<RequestConfig>, err: ApiError, tokens: AuthTokens, tail: seq<Event>)
    requires cs != [] && IsUnauthorized(err) && AllFresh(cs) && Truthy(tokens.refresh)
    ensures Run(Idle, Feed(cs, err, tokens) + tail)
         == match Run(Coord(true, cs[1..], Some(cs[0].(retry := true))), tail)
            case None => None
            case Some(rest) => Some(Reaction(rest.state, [StartRefresh(tokens.refresh)] + rest.effects))
  {
    var es := Feed(cs, err, tokens) + tail;
    assert es[0] == Failed(cs[0], err, Some(tokens));
    assert es[1..] == Feed(cs[1..], err, tokens) + tail;
    var s1 := Coord(true, [], Some(cs[0].(retry := true)));
    assert Step(Idle, es[0]) == Reaction(s1, [StartRefresh(tokens.refresh)]);
    RunStep(Idle, es);
    QueueWhileRefreshing(s1, cs[1..], err, tokens, tail);
    assert s1.failedQueue + cs[1..] == cs[1..];
  }

  /** When the refresh started by such a burst succeeds with a non-empty token,
      every waiting request and then the first one are sent again exactly once,
      in order, with the new token. */
  lemma BurstReplaysEveryRequest(cs: seq<RequestConfig>, err: ApiError, tokens: AuthTokens, newAccess: string)
    requires cs != [] && IsUnauthorized(err) && AllFresh(cs) && Truthy(tokens.refresh) && Truthy(newAccess)
    ensures Run(Idle, Feed(cs, err, tokens) + [RefreshOk(newAccess)])
         == Some(Reaction(Idle, [StartRefresh(tokens.refresh)] + Replays(cs[1..], newAccess)
                                + [Dispatch(WithBearer(cs[0].(retry := true), newAccess))]))
  {
    var waiting := Coord(true, cs[1..], Some(cs[0].(retry := true)));
    var ok := OnRefreshSuccess(waiting, newAccess);
    assert ok.effects == Replays(cs[1..], newAccess) + [Dispatch(WithBearer(cs[0].(retry := true), newAccess))];
    RunStep(waiting, [RefreshOk(newAccess)]);
    assert ok.effects + [] == ok.effects;
    assert Run(waiting, [RefreshOk(newAccess)]) == Some(ok);
    BurstStartsOneRefresh(cs, err, tokens, [RefreshOk(newAccess)]);
    assert [StartRefresh(tokens.refresh)] + ok.effects
        == [StartRefresh(tokens.refresh)] + Replays(cs[1..], newAccess)
           + [Dispatch(WithBearer(cs[0].(retry := true), newAccess))];
  }

  /** When it fails, each waiting request and then the first one are rejected with
      the refresh error, logout is called, and nothing is sent again. */
  lemma BurstRejectsEveryRequest(cs: seq<RequestConfig>, err: ApiError, tokens: AuthTokens, refreshError: ApiError)
    requires cs != [] && IsUnauthorized(err) && AllFresh(cs) && Truthy(tokens.refresh)
    ensures Run(Idle, Feed(cs, err, tokens) + [RefreshErr(refreshError)])
         == Some(Reaction(Idle, [StartRefresh(tokens.refresh)] + Rejections(cs[1..], refreshError)
                                + [Logout, Reject(cs[0].id, refreshError)]))
  {
    var waiting := Coord(true, cs[1..], Some(cs[0].(retry := true)));
    var bad := OnRefreshFailure(waiting, refreshError);
    var rejected := Rejections(cs[1..], refreshError);
    assert bad.effects == rejected + [Logout, Reject(cs[0].id, refreshError)] by {
      assert ProcessQueue(cs[1..], Some(refreshError), None) == rejected;
    }
    assert Run(waiting, [RefreshErr(refreshError)]) == Some(bad) by {
      RunStep(waiting, [RefreshErr(refreshError)]);
      assert bad.effects + [] == bad.effects;
    }
    BurstStartsOneRefresh(cs, err, tokens, [RefreshErr(refreshError)]);
    assert [StartRefresh(tokens.refresh)] + bad.effects
        == [StartRefresh(tokens.refresh)] + rejected + [Logout, Reject(cs[0].id, refreshError)];
  }

  /** Without a refresh token the flag stays raised with nothing in flight: every
      later first-time 401 is queued, no refresh ever starts, and no refresh
      outcome can arrive to settle the queue. */
  lemma MissingRefreshTokenStallsQueue(s: Coord, c: RequestConfig, later: RequestConfig,
                                      err: ApiError, tokens: Option<AuthTokens>)
    requires !s.isRefreshing && s.awaiting.None? && IsUnauthorized(err) && !c.retry && !later.retry
    requires tokens.None? || !Truthy(tokens.value.refresh)
    ensures OnError(s, c, err, tokens).state == s.(isRefreshing := true)
    ensures Stalled(OnError(s, c, err, tokens).state)
    ensures OnError(OnError(s, c, err, tokens).state, later, err, tokens)
         == Reaction(s.(isRefreshing := true, failedQueue := s.failedQueue + [later]), [])
    ensures !Enabled(s.(isRefreshing := true, failedQueue := s.failedQueue + [later]), RefreshOk(""))
  {
  }

  /** The state left by a missing refresh token: the flag is raised while no
      handler awaits a refresh. */
  predicate Stalled(s: Coord) {
    s.isRefreshing && s.awaiting.None?
  }

  /** A stall outlasts every later run: only request failures can arrive, the
      flag stays raised with nothing in flight, the queue only grows, and every
      effect is a rejection, so no queued request is ever sent or settled. */
  lemma {:induction false} StallOutlastsEveryRun(s: Coord, events: seq<Event>)
    requires Stalled(s) && Run(s, events).Some?
    ensures Stalled(Run(s, events).value.state)
    ensures |s.failedQueue| <= |Run(s, events).value.state.failedQueue|
    ensures Run(s, events).value.state.failedQueue[..|s.failedQueue|] == s.failedQueue
    ensures forall i :: 0 <= i < |Run(s, events).value.effects| ==> Run(s, events).value.effects[i].Reject?
    decreases |events|
  {
    if events != [] {
      assert events[0].Failed?;
      var first := Step(s, events[0]);
      assert Stalled(first.state) && first.state.failedQueue[..|s.failedQueue|] == s.failedQueue;
      StallOutlastsEveryRun(first.state, events[1..]);
      var rest := Run(first.state, events[1..]).value;
      assert Run(s, events).value.effects == first.effects + rest.effects;
    }
  }

  /** Replayed queue entries are not marked retried: if a replayed entry gets a 401
      again once the coordinator is idle, it starts another refresh of its own. */
  lemma ReplayedEntryCanRefreshAgain(s: Coord, newAccess: string, err: ApiError, tokens: AuthTokens, i: nat)
    requires Inv(s) && s.awaiting.Some? && Truthy(newAccess) && i < |s.failedQueue|
    requires IsUnauthorized(err) && Truthy(tokens.refresh)
    ensures OnRefreshSuccess(s, newAccess).effects[i].Dispatch?
    ensures OnError(Idle, OnRefreshSuccess(s, newAccess).effects[i].config, err, Some(tokens)).effects
         == [StartRefresh(tokens.refresh)]
  {
  }

  /** The original request, by contrast, is sent again marked retried: a second
      401 on it is rejected and starts nothing. */
  lemma RetriedOriginalFailsFast(s: Coord, newAccess: string, err: ApiError, tokens: Option<AuthTokens>, t: Coord)
    requires Inv(s) && s.awaiting.Some?
    ensures OnError(t, WithBearer(s.awaiting.value, newAccess), err, tokens)
         == Reaction(t, [Reject(s.awaiting.value.id, err)])
  {
  }
}

=== FILE: http.dfy ===
/** Shapes shared by both axios interceptors: the credential pair, the parts of a
    request config the authentication logic reads or writes, transport errors and
    the observable effects an interceptor step produces. */
module Http {
  import opened Wrappers

  /** The `{access, refresh}` pair issued by `POST /token/`. */
  datatype AuthTokens = AuthTokens(access: string, refresh: string)

  /** An axios error: `status` is `error.response?.status`, absent when no
      response arrived (a network failure). */
  datatype ApiError = ApiError(status: Option<int>, detail: string)

  const Unauthorized: int := 401

  predicate IsUnauthorized(e: ApiError) {
    e.status == Some(Unauthorized)
  }

  /** JavaScript truthiness of a string: only the empty string is falsy. */
  predicate Truthy(s: string) {
    s != ""
  }

  /** The parts of an axios request config the interceptors touch. `id` stands for
      the identity of the config object (and of the promise its caller holds);
      `retry` is the ad-hoc `_retry` mark. */
  datatype RequestConfig = RequestConfig(
    id: nat,
    url: string,
    payload: string,
    authorization: Option<string>,
    retry: bool)

  /** The header value `Bearer ${token}`. */
  function Bearer(token: string): string {
    "Bearer " + token
  }

  /** Sets the Authorization header and nothing else. */
  function WithBearer(c: RequestConfig, token: string): (r: RequestConfig)
    ensures r.authorization == Some(Bearer(token))
    ensures r.id == c.id && r.url == c.url && r.payload == c.payload && r.retry == c.retry
  {
    c.(authorization := Some(Bearer(token)))
  }

  /** What an interceptor step does to the outside world, in order. */
  datatype Effect =
      /** `authApi(config)` / `api(config)`: the config is sent again and the
          promise of its caller settles with the outcome of that call. */
    | Dispatch(config: RequestConfig)
      /** The promise held by the caller of request `id` is rejected. */
    | Reject(id: nat, error: ApiError)
      /** `refreshAccessToken(refresh)` is called and awaited. */
    | StartRefresh(refreshToken: string)
      /** The session's `logout()` is called. */
    | Logout

  /** Number of refresh calls started by a sequence of effects. */
  function CountStarts(effects: seq<Effect>): nat {
    if effects == [] then 0
    else (if effects[0].StartRefresh? then 1 else 0) + CountStarts(effects[1..])
  }

  lemma {:induction false} CountStartsAppend(a: seq<Effect>, b: seq<Effect>)
    ensures CountStarts(a + b) == CountStarts(a) + CountStarts(b)
  {
    if a == [] {
      assert a + b == b;
    } else {
      assert (a + b)[1..] == a[1..] + b;
      CountStartsAppend(a[1..], b);
    }
  }

  lemma {:induction false} NoStartsCounted(effects: seq<Effect>)
    requires forall i :: 0 <= i < |effects| ==> !effects[i].StartRefresh?
    ensures CountStarts(effects) == 0
  {
    if effects != [] {
      NoStartsCounted(effects[1..]);
    }
  }
}

=== FILE: identity.dfy ===
/** Deriving the signed-in user from an access token's claims. The JWT decoder
    is a foreign library; it is a parameter here, an arbitrary total function that
    answers `None` where `jwtDecode` would throw. */
module Identity {
  import opened Wrappers

  /** The decoded payload of a token: claim name to (string) claim value. */
  type Claims = map<string, string>

  type Decoder = string -> Option<Claims>

  datatype User = User(username: string)

  const UsernameClaim: string := "username"

  /** The `username` claim is present and truthy. */
  predicate HasUsername(claims: Claims) {
    UsernameClaim in claims && claims[UsernameClaim] != ""
  }

  /** `getUserFromToken`: a user exactly when the token decodes and carries a
      non-empty `username` claim; absence otherwise, never an error. */
  function GetUserFromToken(decode: Decoder, token: string): (u: Option<User>)
    ensures u.Some? <==> decode(token).Some? && HasUsername(decode(token).value)
    ensures u.Some? ==> u.value.username == decode(token).value[UsernameClaim]
  {
    match decode(token)
    case None => None
    case Some(claims) =>
      if HasUsername(claims) then Some(User(claims[UsernameClaim])) else None
  }
}

=== FILE: legacy_interceptor.dfy ===
/** The older interceptor that `AuthContext.tsx` installs on `api` whenever the
    tokens change: a default Authorization header, and a 401 handler that retries
    a request once after its own refresh. It has no queue and no flag, so it is
    not single-flight. The handler closes over the tokens of the render that
    installed it; `installed` below is that snapshot (absent: no handler). */
module LegacyInterceptor {
  import opened Wrappers
  import opened Http
  import AuthContext
  import Coordinator

  /** The `api.defaults.headers.common["Authorization"]` the effect leaves behind. */
  function DefaultAuthorization(tokens: Option<AuthTokens>): (h: Option<string>)
    ensures tokens.Some? ==> h == Some(Bearer(tokens.value.access))
    ensures tokens.None? ==> h.None?
  {
    if tokens.Some? then Some(Bearer(tokens.value.access)) else None
  }

  /** What the handler does with a failed request before any refresh answer. */
  datatype Reaction =
    | Rejected(error: ApiError)
    | Refreshing(config: RequestConfig, refreshToken: string)

  /** The error handler up to its `await`: a 401 on a request not yet retried
      marks it and asks for a refresh with the captured refresh token; anything
      else (or no handler installed) is rejected with the same error. */
  function OnError(installed: Option<AuthTokens>, config: RequestConfig, err: ApiError): (r: Reaction)
    ensures r.Refreshing? <==> installed.Some? && IsUnauthorized(err) && !config.retry
    ensures r.Rejected? ==> r.error == err
    ensures r.Refreshing? ==> r.config == config.(retry := true) && r.refreshToken == installed.value.refresh
  {
    if installed.Some? && IsUnauthorized(err) && !config.retry then
      Refreshing(config.(retry := true), installed.value.refresh)
    else
      Rejected(err)
  }

  /** The handler after the refresh: on success the marked request is sent again
      with the new token; on failure logout is called and the request rejected
      with the refresh error. */
  function OnRefreshDone(config: RequestConfig, response: Result<string, ApiError>): (effects: seq<Effect>)
    ensures response.Ok? ==> effects == [Dispatch(WithBearer(config, response.value))]
    ensures response.Err? ==> effects == [Logout, Reject(config.id, response.error)]
  {
    match response
    case Ok(newAccess) => [Dispatch(WithBearer(config, newAccess))]
    case Err(e) => [Logout, Reject(config.id, e)]
  }

  /** The default header and the request interceptor of `utils/api.ts` put the
      same bearer value on a request that carries none. */
  lemma DefaultHeaderAgreesWithStamp(tokens: Option<AuthTokens>, c: RequestConfig)
    requires c.authorization.None?
    ensures DefaultAuthorization(tokens) == Coordinator.Stamp(tokens, c).authorization
  {
  }

  /** A request is retried at most once: the config sent again after a refresh
      is marked, so a second 401 on it is rejected and asks for nothing. */
  lemma RetriedAtMostOnce(installed: Option<AuthTokens>, c: RequestConfig, err: ApiError,
                                            newAccess: string, again: Option<AuthTokens>, err2: ApiError)
    requires OnError(installed, c, err).Refreshing?
    ensures OnRefreshDone(OnError(installed, c, err).config, Ok(newAccess))[0].Dispatch?
    ensures OnError(again, OnRefreshDone(OnError(installed, c, err).config, Ok(newAccess))[0].config, err2)
         == Rejected(err2)
  {
    var marked := OnError(installed, c, err).config;
    assert marked.retry;
    assert OnRefreshDone(marked, Ok(newAccess))[0].config.retry;
  }

  /** Not single-flight: two different requests that both get a 401 each ask for
      a refresh of their own. */
  lemma TwoFailuresTwoRefreshes(tokens: AuthTokens, a: RequestConfig, b: RequestConfig, err: ApiError)
    requires IsUnauthorized(err) && !a.retry && !b.retry
    ensures OnError(Some(tokens), a, err) == Refreshing(a.(retry := true), tokens.refresh)
    ensures OnError(Some(tokens), b, err) == Refreshing(b.(retry := true), tokens.refresh)
  {
  }

  const LoginPath: string := "/token/"
  const RefreshPath: string := "/token/refresh/"

  /** A request `login` or `refreshAccessToken` sends through `api`: new, not
      marked, with the default header the effect left behind. */
  function ApiPost(id: nat, installed: Option<AuthTokens>, url: string, body: string): (c: RequestConfig)
    ensures !c.retry && c.id == id && c.url == url && c.payload == body
    ensures c.authorization == DefaultAuthorization(installed)
  {
    RequestConfig(id, url, body, DefaultAuthorization(installed), false)
  }

  /** `refreshAccessToken` posts through `api`, where this handler sits whenever
      the session holds tokens. A failure of the refresh request reaches
      `refreshAccessToken` (which logs out and rethrows) exactly when no handler
      is installed or the failure is not a 401. */
  lemma RefreshFailureSurfacesIff(installed: Option<AuthTokens>, id: nat, refreshToken: string, err: ApiError)
    ensures OnError(installed, ApiPost(id, installed, RefreshPath, refreshToken), err) == Rejected(err)
        <==> installed.None? || !IsUnauthorized(err)
  {
  }

  /** An expired refresh token: every refresh request answered with 401 is caught
      here and starts another `refreshAccessToken` with the same refresh token,
      whose own request is new and unmarked again. So no attempt of the chain is
      ever rejected, none logs out, and the chain does not end. */
  lemma ExpiredRefreshTokenAsksAgain(t: AuthTokens, err: ApiError)
    requires IsUnauthorized(err)
    ensures forall id: nat ::
      OnError(Some(t), ApiPost(id, Some(t), RefreshPath, t.refresh), err)
        == Refreshing(ApiPost(id, Some(t), RefreshPath, t.refresh).(retry := true), t.refresh)
  {
  }

  /** A login refused with 401 while the session still holds tokens is not
      rethrown at once: the handler first asks for a refresh. */
  lemma FailedLoginWhileSignedInRefreshes(t: AuthTokens, id: nat, credentials: string, err: ApiError)
    requires IsUnauthorized(err)
    ensures OnError(Some(t), ApiPost(id, Some(t), LoginPath, credentials), err).Refreshing?
    ensures OnError(Some(t), ApiPost(id, Some(t), LoginPath, credentials), err).refreshToken == t.refresh
  {
  }

  /** A failed refresh logs out twice, in `refreshAccessToken` and in the handler;
      the session ends exactly as after one logout. */
  lemma FailedRefreshLogsOutOnce(s: AuthContext.AuthState, e: ApiError)
    ensures AuthContext.Logout(AuthContext.RefreshAccessToken(s, Err(e)).state) == AuthContext.Logout(s)
    ensures !AuthContext.IsAuthenticated(AuthContext.Logout(AuthContext.RefreshAccessToken(s, Err(e)).state))
  {
  }
}

=== FILE: models.dfy ===
/** The shapes of `CustomUser` and `Post` from the blog's Django models.
    Timestamps are integers on one clock; `createdAt` is set once on insert
    and `updatedAt` on every save. */
module Models {

  datatype Account = Account(pk: nat, username: string)

  datatype Post = Post(
    id: nat,
    author: Account,
    title: string,
    slug: string,
    content: string,
    createdAt: int,
    updatedAt: int)

  /** `max_length` of `Post.title`. */
  const TitleMaxLength: nat := 255
}

=== FILE: permissions.dfy ===
/** `IsAuthorOrReadOnly` and the framework's `IsAuthenticatedOrReadOnly`, the two
    permission classes of the post endpoints, as pure decisions over the HTTP
    method (`verb`), the requesting user and (for object checks) the post. */
module Permissions {
  import opened Wrappers
  import opened Models

  /** The framework's `SAFE_METHODS`. */
  const SafeMethods: set<string> := {"GET", "HEAD", "OPTIONS"}

  /** `request.user`: the anonymous user, or an authenticated account. */
  datatype Requester = Anonymous | SignedIn(account: Account) {
    predicate IsAuthenticated() {
      SignedIn?
    }

    /** `request.user.pk`; the anonymous user's is `None`. */
    function Pk(): Option<nat> {
      if SignedIn? then Some(account.pk) else None
    }
  }

  /** `IsAuthorOrReadOnly.has_permission`: safe methods for everyone, any other
      method only for an authenticated user. */
  function AuthorHasPermission(verb: string, user: Requester): (ok: bool)
    ensures verb in SafeMethods ==> ok
    ensures verb !in SafeMethods ==> (ok <==> user.SignedIn?)
  {
    if verb in SafeMethods then true else user.IsAuthenticated()
  }

  /** `IsAuthorOrReadOnly.has_object_permission`: safe methods on any post, any
      other method only by the post's author (primary keys compared). */
  function AuthorHasObjectPermission(verb: string, user: Requester, post: Post): (ok: bool)
    ensures verb in SafeMethods ==> ok
    ensures verb !in SafeMethods ==> (ok <==> user.SignedIn? && user.account.pk == post.author.pk)
  {
    if verb in SafeMethods then true else user.Pk() == Some(post.author.pk)
  }

  /** The framework's `IsAuthenticatedOrReadOnly.has_permission`; its object
      check is the framework default, which allows everything. */
  function ReadOnlyOrAuthenticated(verb: string, user: Requester): bool {
    verb in SafeMethods || user.IsAuthenticated()
  }

  /** The two view-level checks of the post endpoints decide alike. */
  lemma ViewLevelChecksCoincide(verb: string, user: Requester)
    ensures ReadOnlyOrAuthenticated(verb, user) == AuthorHasPermission(verb, user)
  {
  }
}

=== FILE: serializers.dfy ===
/** `PostSerializer` (which fields a post is shown with and which a client may
    write) and the claim `CustomTokenObtainPairSerializer` adds to issued tokens. */
module Serializers {
  import opened Wrappers
  import opened Models
  import opened Identity
  import AuthContext
  import Http

  /** A JSON value of the post representation; `Instant` stands for the
      ISO-8601 rendering of a timestamp. */
  datatype Value = Number(n: int) | Text(s: string) | Instant(at: int)

  type Representation = map<string, Value>

  /** `Meta.fields`, in declaration order. */
  const PostFields: seq<string> := ["id", "title", "content", "created_at", "updated_at", "author_username"]

  /** `Meta.read_only_fields`; `author_username` is read-only by declaration too. */
  const ReadOnlyFields: set<string> := {"id", "created_at", "updated_at", "author_username"}

  function WritableFields(): set<string> {
    (set f | f in PostFields) - ReadOnlyFields
  }

  /** Only the title and the content can ever be written by a client. */
  lemma WritableAreTitleAndContent()
    ensures WritableFields() == {"title", "content"}
  {
    assert "title" in PostFields && "content" in PostFields;
  }

  /** The serialised post: exactly the declared fields, `author_username` taken
      from the author. */
  function Represent(p: Post): (r: Representation)
    ensures r.Keys == set f | f in PostFields
    ensures "slug" !in r && "author" !in r
    ensures r["author_username"] == Text(p.author.username)
    ensures r["title"] == Text(p.title) && r["content"] == Text(p.content)
    ensures r["id"] == Number(p.id)
    ensures r["created_at"] == Instant(p.createdAt) && r["updated_at"] == Instant(p.updatedAt)
  {
    map["id" := Number(p.id),
        "title" := Text(p.title),
        "content" := Text(p.content),
        "created_at" := Instant(p.createdAt),
        "updated_at" := Instant(p.updatedAt),
        "author_username" := Text(p.author.username)]
  }

  /** What validation keeps of a payload: the writable fields, each optional
      (absent only on a partial update). */
  datatype Writes = Writes(title: Option<string>, content: Option<string>)

  /** One writable field: absent is an error unless the update is partial; a
      value must be non-empty text within the length limit. */
  function ValidateField(payload: Representation, name: string, maxLength: Option<nat>, partial: bool): Result<Option<string>, string>
  {
    if name !in payload then (if partial then Ok(None) else Err(name))
    else match payload[name]
      case Text(s) =>
        if s == "" || (maxLength.Some? && |s| > maxLength.value) then Err(name) else Ok(Some(s))
      case _ => Err(name)
  }

  /** `is_valid()` for a create or update: every key outside the writable fields,
      read-only ones included, is ignored. */
  function Validate(payload: Representation, partial: bool): (r: Result<Writes, set<string>>)
    ensures r.Ok? ==> !partial ==> r.value.title.Some? && r.value.content.Some?
    ensures r.Ok? ==> (r.value.title.Some? <==> "title" in payload) && (r.value.content.Some? <==> "content" in payload)
    ensures r.Ok? && r.value.title.Some? ==>
      "title" in payload && payload["title"] == Text(r.value.title.value) && |r.value.title.value| <= TitleMaxLength
    ensures r.Ok? && r.value.content.Some? ==> "content" in payload && payload["content"] == Text(r.value.content.value)
    ensures r.Ok? && r.value.title.Some? ==> r.value.title.value != ""
    ensures r.Ok? && r.value.content.Some? ==> r.value.content.value != ""
    // accepted exactly when each field present is non-blank text (the title
    // within its limit) and both are present unless the update is partial
    ensures r.Ok? <==>
      && ("title" in payload ==>
            payload["title"].Text? && payload["title"].s != "" && |payload["title"].s| <= TitleMaxLength)
      && ("content" in payload ==> payload["content"].Text? && payload["content"].s != "")
      && (!partial ==> "title" in payload && "content" in payload)
    ensures r.Err? ==> r.error != {} && r.error <= {"title", "content"}
    // each refused field is named, and only those
    ensures r.Err? ==> ("title" in r.error <==>
      if "title" in payload then !(payload["title"].Text? && payload["title"].s != "" && |payload["title"].s| <= TitleMaxLength)
      else !partial)
    ensures r.Err? ==> ("content" in r.error <==>
      if "content" in payload then !(payload["content"].Text? && payload["content"].s != "") else !partial)
  {
    var title := ValidateField(payload, "title", Some(TitleMaxLength), partial);
    var content := ValidateField(payload, "content", None, partial);
    if title.Ok? && content.Ok? then Ok(Writes(title.value, content.value))
    else Err((if title.Err? then {"title"} else {}) + (if content.Err? then {"content"} else {}))
  }

  /** Validation reads only the writable fields: a payload and the same payload
      restricted to them validate alike, so client-supplied `id`, timestamps or
      `author_username` cannot change what is written. */
  lemma {:induction false} ValidationIgnoresReadOnly(payload: Representation, partial: bool)
    ensures Validate(payload, partial)
         == Validate(map k | k in payload && k in WritableFields() :: payload[k], partial)
  {
    WritableAreTitleAndContent();
    var restricted := map k | k in payload && k in WritableFields() :: payload[k];
    assert "title" in payload <==> "title" in restricted;
    assert "content" in payload <==> "content" in restricted;
  }

  /** A post's own representation, sent back as a full update, validates and
      writes back the same title and content when they are non-empty and short
      enough. */
  lemma RepresentationRoundTrips(p: Post)
    requires p.title != "" && |p.title| <= TitleMaxLength && p.content != ""
    ensures Validate(Represent(p), false) == Ok(Writes(Some(p.title), Some(p.content)))
  {
  }

  /** `get_token`: the base claims of the token library plus `username`. */
  function GetToken(user: Account, base: Claims): (claims: Claims)
    ensures claims.Keys == base.Keys + {UsernameClaim}
    ensures claims[UsernameClaim] == user.username
    ensures forall k :: k in base && k != UsernameClaim ==> claims[k] == base[k]
  {
    base[UsernameClaim := user.username]
  }

  /** A token the backend issued, decoded by the client, yields that user when the
      username is non-empty, and no user otherwise. */
  lemma IssuedTokenIdentifiesUser(decode: Decoder, token: string, user: Account, base: Claims)
    requires decode(token) == Some(GetToken(user, base))
    ensures user.username != "" ==> GetUserFromToken(decode, token) == Some(User(user.username))
    ensures user.username == "" ==> GetUserFromToken(decode, token).None?
  {
  }

  /** Logging in with an issued pair authenticates the session as the user the
      backend put in the access token. */
  lemma LoginWithIssuedToken(decode: Decoder, s: AuthContext.AuthState, pair: Http.AuthTokens, user: Account, base: Claims)
    requires decode(pair.access) == Some(GetToken(user, base)) && user.username != ""
    ensures AuthContext.IsAuthenticated(AuthContext.Login(decode, s, Ok(pair)).state)
    ensures AuthContext.Login(decode, s, Ok(pair)).state.user == Some(User(user.username))
  {
    IssuedTokenIdentifiesUser(decode, pair.access, user, base);
  }
}

=== FILE: views.dfy ===
/** `PostViewSet`: the five routes of a model view set over the post table, each
    guarded by both permission classes, with `perform_create` forcing the author
    and the list ordered newest first. One request is one pure step from a store
    to a store and a response; the clock is a parameter. */
module Views {
  import opened Wrappers
  import opened Models
  import opened Permissions
  import opened Serializers

  /** The post table; `nextId` is the next automatic primary key. */
  datatype Store = Store(posts: seq<Post>, nextId: nat)

  datatype Action =
    | List
    | Retrieve(id: nat)
    | Create(payload: Representation)
    | Update(id: nat, payload: Representation, partial: bool)
    | Destroy(id: nat)

  /** Why a request is refused: `NotAuthenticated` (401) when no credentials were
      accepted, `PermissionDenied` (403) otherwise; `Conflict` is the database's
      unique-slug violation. */
  datatype Failure = NotAuthenticated | PermissionDenied | NotFound | Invalid(fields: set<string>) | Conflict

  datatype Response =
    | Listed(items: seq<Representation>)
    | Shown(item: Representation)
    | Created(item: Representation)
    | Deleted
    | Failed(failure: Failure)

  datatype Handled = Handled(store: Store, response: Response)

  /** The HTTP method the router maps each action to. */
  function Verb(a: Action): string {
    match a
    case List | Retrieve(_) => "GET"
    case Create(_) => "POST"
    case Update(_, _, partial) => if partial then "PATCH" else "PUT"
    case Destroy(_) => "DELETE"
  }

  /** Every permission class must allow the request; with a target post the
      object checks apply as well. */
  function Allowed(verb: string, user: Requester, target: Option<Post>): (ok: bool)
    ensures verb in SafeMethods ==> ok
    ensures verb !in SafeMethods ==>
      (ok <==> user.SignedIn? && (target.Some? ==> user.account.pk == target.value.author.pk))
  {
    ReadOnlyOrAuthenticated(verb, user) && AuthorHasPermission(verb, user)
    && (target.Some? ==> AuthorHasObjectPermission(verb, user, target.value))
  }

  /** Anyone may read, whatever the post. */
  lemma SafeMethodsAlwaysAllowed(verb: string, user: Requester, target: Option<Post>)
    requires verb in SafeMethods
    ensures Allowed(verb, user, target)
  {
  }

  /** The anonymous user may use exactly the safe methods. */
  lemma AnonymousOnlyReads(verb: string, target: Option<Post>)
    ensures Allowed(verb, Anonymous, target) <==> verb in SafeMethods
  {
  }

  /** A write to the collection needs a signed-in user, and nothing more. */
  lemma CollectionWritesNeedSignIn(verb: string, user: Requester)
    requires verb !in SafeMethods
    ensures Allowed(verb, user, None) <==> user.SignedIn?
  {
  }

  /** A write to a post is allowed exactly to its author. */
  lemma PostWritesNeedAuthor(verb: string, user: Requester, post: Post)
    requires verb !in SafeMethods
    ensures Allowed(verb, user, Some(post)) <==> user.SignedIn? && user.account.pk == post.author.pk
  {
  }

  /** The refusal the framework raises for a denied request. */
  function Denied(user: Requester): (f: Failure)
    ensures f == NotAuthenticated <==> user.Anonymous?
    ensures f == NotAuthenticated || f == PermissionDenied
  {
    if user.SignedIn? then PermissionDenied else NotAuthenticated
  }

  /** The first post with the given primary key. */
  function Lookup(posts: seq<Post>, id: nat): (r: Option<Post>)
    ensures r.Some? ==> r.value in posts && r.value.id == id
    ensures r.None? ==> forall p :: p in posts ==> p.id != id
  {
    if posts == [] then None
    else if posts[0].id == id then Some(posts[0])
    else Lookup(posts[1..], id)
  }

  /** The table with the post of that key replaced by `p`. */
  function Replace(posts: seq<Post>, id: nat, p: Post): (r: seq<Post>)
    ensures |r| == |posts|
    ensures forall i :: 0 <= i < |posts| ==> r[i] == if posts[i].id == id then p else posts[i]
    ensures forall x :: x in r ==> x == p || (x in posts && x.id != id)
  {
    if posts == [] then [] else [if posts[0].id == id then p else posts[0]] + Replace(posts[1..], id, p)
  }

  /** The table without the posts of that key. */
  function Remove(posts: seq<Post>, id: nat): (r: seq<Post>)
    ensures forall p :: p in r <==> p in posts && p.id != id
    ensures |r| <= |posts|
  {
    if posts == [] then [] else (if posts[0].id == id then [] else [posts[0]]) + Remove(posts[1..], id)
  }

  /** `order_by("-created_at")`. */
  ghost predicate NewestFirst(posts: seq<Post>) {
    forall i, j :: 0 <= i < j < |posts| ==> posts[i].createdAt >= posts[j].createdAt
  }

  function InsertNewestFirst(p: Post, sorted: seq<Post>): (r: seq<Post>)
    requires NewestFirst(sorted)
    ensures NewestFirst(r)
    ensures multiset(r) == multiset(sorted) + multiset{p}
    ensures |r| == |sorted| + 1
    ensures r != [] && (r[0] == p || (sorted != [] && r[0] == sorted[0]))
  {
    if sorted == [] || sorted[0].createdAt <= p.createdAt then [p] + sorted
    else
      var rest := InsertNewestFirst(p, sorted[1..]);
      assert sorted == [sorted[0]] + sorted[1..];
      [sorted[0]] + rest
  }

  /** The queryset's order: every post, newest first. */
  function OrderNewestFirst(posts: seq<Post>): (r: seq<Post>)
    ensures NewestFirst(r)
    ensures multiset(r) == multiset(posts)
    ensures |r| == |posts|
  {
    if posts == [] then []
    else
      assert posts == [posts[0]] + posts[1..];
      InsertNewestFirst(posts[0], OrderNewestFirst(posts[1..]))
  }

  /** No two rows share a primary key. */
  ghost predicate KeysDistinct(posts: seq<Post>) {
    forall i, j :: 0 <= i < j < |posts| ==> posts[i].id != posts[j].id
  }

  /** The table's invariant: primary keys are unique per row, and every key is
      below `nextId`. */
  ghost predicate Inv(st: Store) {
    (forall p :: p in st.posts ==> p.id < st.nextId)
    && KeysDistinct(st.posts)
  }

  /** No row of `posts` has key `k`. */
  ghost predicate KeyAbsent(posts: seq<Post>, k: nat) {
    forall i :: 0 <= i < |posts| ==> posts[i].id != k
  }

  lemma {:induction false} RemoveKeepsKeyAbsent(posts: seq<Post>, id: nat, k: nat)
    requires KeyAbsent(posts, k)
    ensures KeyAbsent(Remove(posts, id), k)
  {
    if posts != [] {
      RemoveKeepsKeyAbsent(posts[1..], id, k);
    }
  }

  /** Deleting rows keeps the remaining keys distinct. */
  lemma {:induction false} RemoveKeepsKeysDistinct(posts: seq<Post>, id: nat)
    requires KeysDistinct(posts)
    ensures KeysDistinct(Remove(posts, id))
  {
    if posts != [] {
      var rest := Remove(posts[1..], id);
      RemoveKeepsKeysDistinct(posts[1..], id);
      if posts[0].id != id {
        RemoveKeepsKeyAbsent(posts[1..], id, posts[0].id);
        var r := Remove(posts, id);
        assert r == [posts[0]] + rest;
        forall i, j | 0 <= i < j < |r|
          ensures r[i].id != r[j].id
        {
          assert r[j] == rest[j - 1];
        }
      }
    }
  }

  /** Replacing a row by one with the same key keeps the keys as they were. */
  lemma ReplaceKeepsKeys(posts: seq<Post>, id: nat, q: Post)
    requires q.id == id
    ensures forall i :: 0 <= i < |posts| ==> Replace(posts, id, q)[i].id == posts[i].id
  {
  }

  /** A request through the view set. Permissions are checked first (the view
      level here, the object level once the post is found), then the payload,
      then the database. */
  function Handle(st: Store, user: Requester, a: Action, now: int): (h: Handled)
    // the anonymous user is refused any write before anything else happens
    ensures Verb(a) !in SafeMethods && user.Anonymous? ==> h == Handled(st, Failed(NotAuthenticated))
    // a refused request and a read leave the table alone
    ensures h.response.Failed? || a.List? || a.Retrieve? ==> h.store == st
    ensures a.List? ==> h.response.Listed? && |h.response.items| == |st.posts|
    ensures h.response.Created? ==> a.Create? && user.SignedIn?
    ensures h.response.Deleted? ==> a.Destroy? && user.SignedIn?
  {
    var verb := Verb(a);
    if !(ReadOnlyOrAuthenticated(verb, user) && AuthorHasPermission(verb, user)) then
      Handled(st, Failed(Denied(user)))
    else match a
      case List => Handled(st, Listed(RepresentAll(OrderNewestFirst(st.posts))))
      case Retrieve(id) => RetrievePost(st, id)
      case Create(payload) => CreatePost(st, user.account, payload, now)
      case Update(id, payload, partial) => UpdatePost(st, user, id, payload, partial, now)
      case Destroy(id) => DestroyPost(st, user, id)
  }

  function RepresentAll(posts: seq<Post>): (r: seq<Representation>)
    ensures |r| == |posts|
  {
    seq(|posts|, i requires 0 <= i < |posts| => Represent(posts[i]))
  }

  function RetrievePost(st: Store, id: nat): (h: Handled)
    ensures h.store == st
    ensures h.response == Failed(NotFound) <==> forall p :: p in st.posts ==> p.id != id
    ensures h.response.Shown? ==> exists p :: p in st.posts && p.id == id && h.response.item == Represent(p)
    ensures h.response.Shown? || h.response == Failed(NotFound)
  {
    match Lookup(st.posts, id)
    case None => Handled(st, Failed(NotFound))
    case Some(p) => Handled(st, Shown(Represent(p)))
  }

  /** `create` and `perform_create`: the author is the requester, whatever the
      payload says; the serializer never sets the slug, so it is left empty and
      the database's unique constraint decides. */
  function CreatePost(st: Store, author: Account, payload: Representation, now: int): (h: Handled)
    ensures h.response.Created? <==> Validate(payload, false).Ok? && forall q :: q in st.posts ==> q.slug != ""
    ensures Validate(payload, false).Err? ==> h.response == Failed(Invalid(Validate(payload, false).error))
    ensures Validate(payload, false).Ok? && (exists q :: q in st.posts && q.slug == "") ==> h.response == Failed(Conflict)
    ensures !h.response.Created? ==> h.store == st
    ensures h.response.Created? ==>
      && h.store.nextId == st.nextId + 1
      && |h.store.posts| == |st.posts| + 1 && h.store.posts[..|st.posts|] == st.posts
      && var p := h.store.posts[|st.posts|];
         && p.id == st.nextId && p.author == author && p.slug == ""
         && Text(p.title) == payload["title"] && Text(p.content) == payload["content"]
         && p.createdAt == now && p.updatedAt == now
         && h.response.item == Represent(p)
  {
    match Validate(payload, false)
    case Err(fields) => Handled(st, Failed(Invalid(fields)))
    case Ok(w) =>
      var p := Post(st.nextId, author, w.title.value, "", w.content.value, now, now);
      if exists q :: q in st.posts && q.slug == p.slug then Handled(st, Failed(Conflict))
      else Handled(Store(st.posts + [p], st.nextId + 1), Created(Represent(p)))
  }

  /** The post with the validated writes applied and `updated_at` refreshed. */
  function Rewrite(p: Post, w: Writes, now: int): Post {
    p.(title := if w.title.Some? then w.title.value else p.title,
       content := if w.content.Some? then w.content.value else p.content,
       updatedAt := now)
  }

  function UpdatePost(st: Store, user: Requester, id: nat, payload: Representation, partial: bool, now: int): (h: Handled)
    ensures h.response == Failed(NotFound) <==> forall p :: p in st.posts ==> p.id != id
    // written exactly when the post exists, the requester is its author and the payload is valid
    ensures h.response.Shown? <==>
      && Lookup(st.posts, id).Some?
      && user.SignedIn? && user.account.pk == Lookup(st.posts, id).value.author.pk
      && Validate(payload, partial).Ok?
    ensures !h.response.Shown? ==> h.store == st
    // only rows with that key change
    ensures h.response.Shown? ==>
      && h.store.nextId == st.nextId && |h.store.posts| == |st.posts|
      && forall i :: 0 <= i < |st.posts| && st.posts[i].id != id ==> h.store.posts[i] == st.posts[i]
  {
    var found := Lookup(st.posts, id);
    assert "PATCH" !in SafeMethods && "PUT" !in SafeMethods;
    if found.None? then Handled(st, Failed(NotFound))
    else if !AuthorHasObjectPermission(if partial then "PATCH" else "PUT", user, found.value) then
      Handled(st, Failed(Denied(user)))
    else
      var written := Validate(payload, partial);
      if written.Err? then Handled(st, Failed(Invalid(written.error)))
      else
        var q := Rewrite(found.value, written.value, now);
        Handled(Store(Replace(st.posts, id, q), st.nextId), Shown(Represent(q)))
  }

  function DestroyPost(st: Store, user: Requester, id: nat): (h: Handled)
    ensures h.response == Failed(NotFound) <==> forall p :: p in st.posts ==> p.id != id
    // deleted exactly when the post exists and the requester is its author
    ensures h.response == Deleted <==>
      Lookup(st.posts, id).Some? && user.SignedIn? && user.account.pk == Lookup(st.posts, id).value.author.pk
    ensures h.response != Deleted ==> h.store == st
    ensures h.response == Deleted ==>
      h.store.nextId == st.nextId && forall p :: p in h.store.posts <==> p in st.posts && p.id != id
  {
    match Lookup(st.posts, id)
    case None => Handled(st, Failed(NotFound))
    case Some(p) =>
      if !AuthorHasObjectPermission("DELETE", user, p) then Handled(st, Failed(Denied(user)))
      else Handled(Store(Remove(st.posts, id), st.nextId), Deleted)
  }

  lemma CreateKeepsInv(st: Store, author: Account, payload: Representation, now: int)
    requires Inv(st)
    ensures Inv(CreatePost(st, author, payload, now).store)
  {
    var h := CreatePost(st, author, payload, now);
    if h.store != st {
      assert h.store.posts[..|st.posts|] == st.posts;
    }
  }

  lemma UpdateKeepsInv(st: Store, user: Requester, id: nat, payload: Representation, partial: bool, now: int)
    requires Inv(st)
    ensures Inv(UpdatePost(st, user, id, payload, partial, now).store)
  {
    var h := UpdatePost(st, user, id, payload, partial, now);
    if h.store != st {
      var p := Lookup(st.posts, id).value;
      var q := Rewrite(p, Validate(payload, partial).value, now);
      assert h.store.posts == Replace(st.posts, id, q);
      ReplaceKeepsKeys(st.posts, id, q);
    }
  }

  lemma DestroyKeepsInv(st: Store, user: Requester, id: nat)
    requires Inv(st)
    ensures Inv(DestroyPost(st, user, id).store)
  {
    if DestroyPost(st, user, id).store != st {
      RemoveKeepsKeysDistinct(st.posts, id);
    }
  }

  /** The post a request's object checks apply to: the target of an update or a
      delete, when it exists. */
  function Target(st: Store, a: Action): Option<Post> {
    if a.Update? || a.Destroy? then Lookup(st.posts, a.id) else None
  }

  /** The request handler refuses a request exactly when the two permission
      classes together do not allow it on its target. */
  lemma HandleDeniesIffNotAllowed(st: Store, user: Requester, a: Action, now: int)
    ensures Handle(st, user, a, now).response == Failed(Denied(user)) <==> !Allowed(Verb(a), user, Target(st, a))
  {
    assert "PATCH" !in SafeMethods && "PUT" !in SafeMethods && "DELETE" !in SafeMethods && "POST" !in SafeMethods;
  }

  /** Every request keeps the table's invariant. */
  lemma HandleKeepsInv(st: Store, user: Requester, a: Action, now: int)
    requires Inv(st)
    ensures Inv(Handle(st, user, a, now).store)
  {
    if ReadOnlyOrAuthenticated(Verb(a), user) && AuthorHasPermission(Verb(a), user) {
      match a
      case Create(payload) => CreateKeepsInv(st, user.account, payload, now);
      case Update(id, payload, partial) => UpdateKeepsInv(st, user, id, payload, partial, now);
      case Destroy(id) => DestroyKeepsInv(st, user, id);
      case _ =>
    }
  }

  /** The anonymous user changes nothing. */
  lemma AnonymousChangesNothing(st: Store, a: Action, now: int)
    ensures Handle(st, Anonymous, a, now).store == st
  {
  }

  /** A created post is appended with the requester as its author and fresh key,
      and is shown with the requester's username. */
  lemma CreateForcesAuthor(st: Store, user: Requester, payload: Representation, now: int)
    requires Handle(st, user, Create(payload), now).response.Created?
    ensures user.SignedIn?
    ensures var h := Handle(st, user, Create(payload), now);
      |h.store.posts| == |st.posts| + 1 && h.store.posts[..|st.posts|] == st.posts
      && h.store.posts[|st.posts|].author == user.account
      && h.store.posts[|st.posts|].id == st.nextId
      && h.response.item["author_username"] == Text(user.account.username)
  {
    var h := Handle(st, user, Create(payload), now);
    assert h.store.posts[..|st.posts|] == st.posts;
  }

  /** A read-only field in the payload of a create, `author_username` among them,
      makes no difference to the outcome. */
  lemma CreateIgnoresReadOnlyFields(st: Store, user: Requester, payload: Representation, k: string, v: Value, now: int)
    requires k in ReadOnlyFields
    ensures Handle(st, user, Create(payload[k := v]), now) == Handle(st, user, Create(payload), now)
  {
    WritableAreTitleAndContent();
    ValidationIgnoresReadOnly(payload, false);
    ValidationIgnoresReadOnly(payload[k := v], false);
    var w1 := map x | x in payload[k := v] && x in WritableFields() :: payload[k := v][x];
    var w2 := map x | x in payload && x in WritableFields() :: payload[x];
    assert w1 == w2;
  }

  /** Only a post's author can update or delete it: a request that changes the
      table on an existing key comes from the author of the row it targets. */
  lemma OnlyAuthorModifies(st: Store, user: Requester, a: Action, now: int)
    ensures (a.Update? || a.Destroy?) && Handle(st, user, a, now).store != st ==>
      user.SignedIn? && Lookup(st.posts, a.id).Some? && Lookup(st.posts, a.id).value.author.pk == user.account.pk
  {
  }

  /** Replacing the row of a key that is present makes the lookup see the new row. */
  lemma {:induction false} LookupAfterReplace(posts: seq<Post>, id: nat, q: Post)
    requires Lookup(posts, id).Some? && q.id == id
    ensures Lookup(Replace(posts, id, q), id) == Some(q)
  {
    if posts[0].id != id {
      LookupAfterReplace(posts[1..], id, q);
      assert Replace(posts, id, q)[1..] == Replace(posts[1..], id, q);
    }
  }

  /** An update rewrites only the writable fields present in the payload and the
      modification time: the key, the author, the slug and the creation time stay. */
  lemma UpdateKeepsReadOnly(st: Store, user: Requester, id: nat, payload: Representation, partial: bool, now: int)
    ensures Handle(st, user, Update(id, payload, partial), now).response.Shown? ==>
      var before := Lookup(st.posts, id);
      var after := Lookup(Handle(st, user, Update(id, payload, partial), now).store.posts, id);
      before.Some? && after.Some?
      && after.value.id == before.value.id && after.value.author == before.value.author
      && after.value.slug == before.value.slug && after.value.createdAt == before.value.createdAt
      && after.value.updatedAt == now
      && ("title" in payload ==> Text(after.value.title) == payload["title"])
      && ("title" !in payload ==> after.value.title == before.value.title)
      && ("content" in payload ==> Text(after.value.content) == payload["content"])
      && ("content" !in payload ==> after.value.content == before.value.content)
  {
    if Handle(st, user, Update(id, payload, partial), now).response.Shown? {
      assert Handle(st, user, Update(id, payload, partial), now) == UpdatePost(st, user, id, payload, partial, now);
      var p := Lookup(st.posts, id).value;
      var w := Validate(payload, partial).value;
      LookupAfterReplace(st.posts, id, Rewrite(p, w, now));
    }
  }

  /** The list shows every post, newest first. */
  lemma ListIsNewestFirst(st: Store, user: Requester, now: int)
    ensures Handle(st, user, List, now).response.Listed?
    ensures exists ordered: seq<Post> ::
      NewestFirst(ordered) && multiset(ordered) == multiset(st.posts) && |ordered| == |st.posts|
      && Handle(st, user, List, now).response.items == seq(|ordered|, i requires 0 <= i < |ordered| => Represent(ordered[i]))
  {
    var ordered := OrderNewestFirst(st.posts);
    assert |ordered| == |multiset(ordered)| == |st.posts|;
  }

  /** Posts made through the API all get the empty slug, and the slug is unique:
      once one such post exists, every further create fails. */
  lemma SecondApiCreateConflicts(st: Store, user: Requester, p1: Representation, p2: Representation, now1: int, now2: int)
    requires Handle(st, user, Create(p1), now1).response.Created?
    ensures Handle(Handle(st, user, Create(p1), now1).store, user, Create(p2), now2).response.Failed?
  {
    var s1 := Handle(st, user, Create(p1), now1).store;
    assert s1.posts[|s1.posts| - 1] in s1.posts && s1.posts[|s1.posts| - 1].slug == "";
    EmptySlugBlocksEveryCreate(s1, user, p2, now2);
  }

  /** While a post with the empty slug exists, every create fails, whoever sends
      it and whatever the payload, and the table stays as it is. */
  lemma EmptySlugBlocksEveryCreate(st: Store, user: Requester, p: Representation, now: int)
    requires exists q :: q in st.posts && q.slug == ""
    ensures Handle(st, user, Create(p), now).response.Failed?
    ensures Handle(st, user, Create(p), now).store == st
  {
  }
}

=== FILE: wrappers.dfy ===
/** Failure-compatible wrappers used throughout the model: `Option` for the
    source's `T | null` values and `Result` for calls that either return or throw. */
module Wrappers {

  datatype Option<+T> = None | Some(value: T)

  datatype Result<+T, +E> = Ok(value: T) | Err(error: E)
}
